=== FILE: README.md ===
# Web stories: a Dafny model of the story CMS rules

This project models the rule-bearing core of a Laravel/Filament admin panel for
"web stories": multi-slide stories grouped under categories and published through
a JSON API. The model is functional. Categories, posts and slides are immutable
datatypes. A database table is a `seq` of rows, and every hook, accessor, scope
and action is a pure function over them.

- `Categories` (`category.dfy`) covers the `creating` and `updating` slug hooks
  of the category model. The suffix loop is the recursive `FirstFree`. It
  terminates because each colliding probe is a different stored slug.
- `CategoryDeletion` (`category_delete.dfy`) covers the cascade from
  `posts.category_id`.
- `Posts` (`post.dfy`) covers the post model: the title and slides accessors,
  `slides_count`, `preview_image`, `excerpt`, and the `active`/`inactive` scopes
  over the JSON `content` column.
- `Slides` (`slide.dfy`) covers the relational slide model: the image
  accessors, the CTA helpers and the query scopes.
- `Listing` (`listing.dfy`) covers the public controller action: active posts,
  newest first, ten per page.
- `StoryResource` (`story_resource.dfy`) covers the JSON projection of a post.
- `PostForm` (`post_form.dfy`) covers the admin resource: validation, new-form
  defaults, conditional visibility, the repeater item label, the status filter,
  the bulk publish and draft actions, and the title tooltip.
- `Php` (`php.dfy`) and `Seqs` (`seqs.dfy`) hold the runtime semantics these
  rules use. That means `null`, `empty()`, truthiness, integer-to-string
  conversion, `trim()` blankness and byte-counting `strlen()`, plus the
  filter and first-match searches.

Some calls go into library code the model does not describe. `Str::slug`,
`strip_tags`, `Str::limit`, `filter_var(..., FILTER_VALIDATE_URL)`, media URL
generation and `toDateTimeString()` are function parameters, and nothing is
assumed about them, with one exception: `Str::limit` with a null limit is spelled
out (`Php.StrLimit`); with a numeric limit it is the parameter `limitTo`. Timestamps are integers and "now" is a parameter.

A few facts about the code shape the model:
- Only the category hooks generate a slug; the post model has no slug hook, and
  nothing fills the SEO fields automatically.
- The resource emits `content_with_images`, `featured_image` and
  `has_zoom_effects`, accessors the post model does not define, so the model
  treats their values as caller-supplied.
- The controller pages by 10.
- The post accessors read slides from the JSON `content` column; the `Slide`
  model is a separate table. Both are modelled as they are written.
- The accessors index a slide's toggle directly (`$slide['image_active']`), so a
  slide whose toggle key is absent makes the accessor raise Laravel's
  `ErrorException` for an undefined array key. The model tells an absent key
  apart from a stored null and returns that failure as a value.

## Model

| member | source | states |
|---|---|---|
| Categories.FirstFree | app/Models/Category.php:33-38 | the suffix loop terminates; the chosen probe is free, every earlier probe is taken, and the suffix is at most the number of distinct taken slugs |
| Categories.UniqueSlug | app/Models/Category.php:32-38 | the slug the loop settles on is not taken and is the first free candidate `base`, `base-1`, `base-2`, ... |
| Categories.CandidateInjective | app/Models/Category.php:36 | two different counters never produce the same slug, and a suffixed slug never equals the base |
| Categories.MinimalFreeUnique | app/Models/Category.php:35-38 | at most one slug is the first free candidate, so the contract of the hooks fixes the slug completely |
| Categories.Creating | app/Models/Category.php:27-40 | a non-empty slug is kept verbatim; an empty slug (`""`/null or `"0"`) becomes the first free candidate of `Str::slug(name)` over all stored slugs; no other attribute changes |
| Categories.Updating | app/Models/Category.php:42-57 | the record is returned unchanged unless the name is dirty and the slug is not; in that case the slug becomes the first free candidate among the slugs of the other rows (own id excluded) |
| Categories.CreatingSlugShape | app/Models/Category.php:32-36 | a generated slug is the base, or the base plus `-` plus decimal digits: suffixes attach to the original base and never stack |
| Categories.CreatingIsFresh | app/Models/Category.php:35-38 | a generated slug differs from every slug already in the table |
| Categories.TakenSlugsSize | app/Models/Category.php:35 | the collision query sees at most one slug per stored row |
| Categories.CreatingSuffixBound | app/Models/Category.php:33-38 | the suffix of a generated slug is at most the number of stored rows |
| Categories.SuppliedSlugNotChecked | app/Models/Category.php:28 | a caller-supplied slug is not checked and can collide with a stored slug |
| Categories.AmazingJourneyTwice | app/Models/Category.php:28-38 | two categories named "Amazing Journey" get `amazing-journey` and `amazing-journey-1` |
| Categories.UpdatingOwnSlugUnsuffixed | app/Models/Category.php:50-52 | if no other row holds the base slug, the regenerated slug is the unsuffixed base, even when this record already holds it |
| Categories.CreatingKeepsSlugsDistinct | app/Models/Category.php:27-40 | inserting a record whose slug was generated keeps all slugs in the table distinct |
| Categories.UpdatingKeepsSlugsDistinct | app/Models/Category.php:42-57 | saving an update whose slug was regenerated keeps all slugs in the table distinct |
| CategoryDeletion.DeleteCategory | database/migrations/2025_06_25_061818_added_category_id_to_posts_table.php:15 | deleting a category removes it and every post referencing it; every other category and post survives |
| CategoryDeletion.DeleteKeepsReferences | database/migrations/2025_06_25_061818_added_category_id_to_posts_table.php:15 | if every post referred to a stored category before the delete, every surviving post still does |
| CategoryDeletion.DeleteKeepsOtherPostsExactly | database/migrations/2025_06_25_061818_added_category_id_to_posts_table.php:15 | each post of another category keeps its exact multiplicity, and posts of the deleted category are gone |
| Seqs.FirstIndex | app/Models/Post.php:67-73 | the `foreach` with an early return finds the first match: that element matches, no earlier one does, and "none" means no element matches |
| Posts.Title | app/Models/Post.php:30-36 | the title is the stored title when there is one and "Untitled Story" when it is null |
| Posts.Slides | app/Models/Post.php:38-44 | the slides are the stored `content.slides` list, or empty when the key is missing or null |
| Posts.SlidesCount | app/Models/Post.php:59-62 | the count is the length of the stored slide list, and 0 exactly when the list is missing or empty |
| Posts.TitleDefault | app/Models/Post.php:30-36 | the title is the stored title, or "Untitled Story" exactly when the stored title is null (or is that text itself); an empty stored title stays empty |
| Posts.FreshPostHasNoSlides | app/Models/Post.php:26-28 | a post with the default `{}` content has no slides, a count of 0, no preview image and the "No content available." excerpt |
| Posts.SlidesCountZero | app/Models/Post.php:59-62 | the slide count is 0 exactly when `content['slides']` is missing or an empty list |
| Posts.PreviewImage | app/Models/Post.php:65-74 | the preview is null exactly when the loop stops at no slide; it is the image of the first slide with an image set and `image_active` truthy when the loop stops there; and it raises an undefined-key error for `image_active` when the first slide the loop stops at has an image but no `image_active` key |
| Posts.PreviewImageIgnoresLaterSlides | app/Models/Post.php:67-73 | slides after the one where the preview loop stops (returning or raising) never change its outcome |
| Posts.ExcerptWithLimit | app/Models/Post.php:77-86 | when the loop stops at no slide the excerpt is exactly "No content available."; otherwise, at the first slide with content set, it is `Str::limit(strip_tags(content), $limit)` if `text_active` is truthy and an undefined-key error if the `text_active` key is absent |
| Posts.Excerpt | app/Models/Post.php:77-86 | reading `$post->excerpt` passes the null stored value as `$limit`: the result is "No content available." exactly when the loop stops at no slide; at the first slide where it stops it is the undefined-key error if `text_active` is absent, otherwise "..." or, when stripping tags leaves nothing, "" |
| Posts.IntendedExcerpt | app/Models/Post.php:77-86 | with the declared default of 150, the excerpt is `Str::limit(strip_tags(content), 150)` of the first text slide, "No content available." when the loop stops nowhere, and it raises exactly when the as-written read does |
| Posts.ExcerptAsWrittenHidesText | app/Models/Post.php:77-82 | a single slide showing "<p>Hello</p>" reads as "..." as written and as "Hello" with the limit of 150 |
| Posts.ExcerptIgnoresLaterSlides | app/Models/Post.php:79-85 | for any `$limit`, slides after the one where the excerpt loop stops (returning or raising) never change its outcome |
| Posts.AccessorsDefinedWhenTogglesPresent | app/Models/Post.php:65-86 | when every slide carries both toggle keys, as the admin form stores them, neither accessor raises |
| Posts.MissingImageToggleRaises | app/Models/Post.php:68-71 | a first slide with an image and no `image_active` key makes `preview_image` raise, although a later slide would qualify |
| Posts.Active | app/Models/Post.php:47-50 | the scope keeps exactly the posts with `is_active` true |
| Posts.Inactive | app/Models/Post.php:53-56 | the scope keeps exactly the posts with `is_active` false |
| Posts.ActiveInactivePartition | app/Models/Post.php:47-56 | every post is in exactly one of the two scopes, and together they hold each post exactly as often as the input |
| Slides.ImageUrl | app/Models/Slide.php:51-67 | an image URL is null exactly when the slide has no media, and otherwise is the URL of that media in the requested conversion |
| Slides.SlideImage | app/Models/Slide.php:51-55 | null exactly without a first media; otherwise the URL of its `story` conversion |
| Slides.SlideImageThumb | app/Models/Slide.php:57-61 | null exactly without a first media; otherwise the URL of its `thumb` conversion |
| Slides.SlideImageOriginal | app/Models/Slide.php:63-67 | null exactly without a first media; otherwise the URL of the uploaded file |
| Slides.ImageAccessorsAgree | app/Models/Slide.php:51-72 | `slide_image`, `slide_image_thumb` and `slide_image_original` are each null exactly when `has_slide_image` is false |
| Slides.HasCtaButton | app/Models/Slide.php:75-78 | true exactly when the button is shown and the link is non-null and neither "" nor "0" |
| Slides.IsValidCtaLink | app/Models/Slide.php:80-83 | the URL check of the link, with a null link checked as "" |
| Slides.CtaButtonText | app/Models/Slide.php:85-89 | the button text is "Call to Action" |
| Slides.HasCtaButtonExactly | app/Models/Slide.php:75-78 | a slide has a button exactly when the button is shown and the link is non-null and neither "" nor "0" |
| Slides.HasCtaButtonInWithCta | app/Models/Slide.php:75-78 | a slide with a button satisfies the `withCta` condition |
| Slides.WithCtaWithoutButton | app/Models/Slide.php:92-95 | a shown button whose link is "" or "0" passes `withCta` yet has no button |
| Slides.NullLinkValidatedAsEmpty | app/Models/Slide.php:80-83 | the URL check treats a null link like the empty string |
| Slides.CtaButtonTextConstant | app/Models/Slide.php:85-89 | the button text is "Call to Action" for every slide |
| Slides.WithCta | app/Models/Slide.php:92-95 | the scope keeps exactly the slides with the button shown and a non-null link |
| Slides.WithoutCta | app/Models/Slide.php:97-100 | the scope keeps exactly the slides whose button is hidden or whose link is null |
| Slides.CtaScopesComplementary | app/Models/Slide.php:92-100 | every slide satisfies exactly one of the two CTA scope conditions |
| Slides.CtaScopesPartition | app/Models/Slide.php:92-100 | the two CTA scopes together hold each slide exactly as often as the input |
| Slides.WithZoomEffect | app/Models/Slide.php:102-105 | the scope keeps exactly the slides with `zoom_effect` |
| Slides.ActiveSlides | app/Models/Slide.php:107-110 | the scope keeps exactly the slides with `text_active` |
| Listing.SortNewestFirst | app/Http/Controllers/WebStoriesController.php:13 | `latest()` returns a permutation of its input ordered by `created_at`, non-increasing |
| Listing.ResolvePage | app/Http/Controllers/WebStoriesController.php:13 | the paginator uses the requested page when it is at least 1, and page 1 otherwise |
| Listing.LastPage | app/Http/Controllers/WebStoriesController.php:13 | the last page number is at least 1, its pages hold all posts, and it is the smallest such number |
| Listing.PageItems | app/Http/Controllers/WebStoriesController.php:13 | page n is the offset/limit window: its k-th post is post (n-1)*10+k of the list, and it holds min(10, remaining) posts, none once the offset is past the end |
| Listing.Paginate | app/Http/Controllers/WebStoriesController.php:13 | the paginator reports the resolved page as current, the list length as total, 10 per page and `LastPage(total)` as the last page, and its data is that page's window of the list |
| Listing.GetPosts | app/Http/Controllers/WebStoriesController.php:11-16 | every listed post is active and stored, a page is ordered newest first, holds at most 10 posts, and the total counts the active posts |
| Listing.AllPagesYieldList | app/Http/Controllers/WebStoriesController.php:13 | pages 1 to the last page concatenate to the paginated list |
| Listing.ApiPagesCoverActivePosts | app/Http/Controllers/WebStoriesController.php:13 | requesting every page in turn, with every request ordering ties the same way, yields exactly the active posts, newest first, none lost or duplicated |
| Listing.NewestFirstUnique | app/Http/Controllers/WebStoriesController.php:13 | without two different posts sharing a `created_at`, two newest-first orderings of the same posts are identical |
| Listing.ListedIsTheOnlyOrder | app/Http/Controllers/WebStoriesController.php:13 | when no two active posts share a `created_at`, every newest-first ordering the database may return is the listing that is paged, so separate page requests agree |
| Listing.PagePastLastIsEmpty | app/Http/Controllers/WebStoriesController.php:13 | a page number past the last page returns no posts |
| StoryResource.CategoryFields | app/Http/Resources/WebStoriesResource.php:26-30 | the category block is all null exactly when the post has no category, and otherwise copies its id, name and slug |
| StoryResource.ToArray | app/Http/Resources/WebStoriesResource.php:15-39 | id and slug are copied, the title is the accessor value, `slides_count` is the slide list length, `is_active` is the stored flag, `content`, `featured_image` and `has_zoom_effects` pass through, the category block is `CategoryFields` of the relation (null exactly without a category), the seo block copies the three meta fields, and both timestamps are formatted |
| StoryResource.NullTitlePublishedAsUntitled | app/Http/Resources/WebStoriesResource.php:19 | a post stored without a title is published as "Untitled Story" |
| StoryResource.Collection | app/Http/Controllers/WebStoriesController.php:15 | the collection projects each post in page order, one entry per post |
| StoryResource.Respond | app/Http/Controllers/WebStoriesController.php:13-15 | a response holds at most 10 entries and never an inactive story; its meta reports the active-post count as total, 10 per page, the resolved page and `LastPage(total)` |
| StoryResource.PageResponse | app/Http/Controllers/WebStoriesController.php:15 | the collection response for a paginator has one entry per page item and carries that page's meta |
| StoryResource.PageMeta | app/Http/Controllers/WebStoriesController.php:13-15 | the meta copies current page, last page, per page and total; `from`/`to` are null exactly on an empty page and otherwise the 1-based positions of its first and last item; `prev` exists past page 1 and `next` before the last page |
| StoryResource.RespondMetaLocatesData | app/Http/Controllers/WebStoriesController.php:13-15 | `from`/`to` are null exactly on an empty page; otherwise the entries are the projections of positions `from` to `to` of the newest-first active posts; `prev` is linked past page 1 and `next` exactly when active posts remain after `to` |
| PostForm.NewForm | app/Filament/Resources/PostResource.php:144-145 | a new form starts with exactly one slide, publishing switched on and no title |
| PostForm.TitleErrors | app/Filament/Resources/PostResource.php:37-40 | the title is reported missing exactly when it is null or blank, and too long exactly when it is present and longer than 255 characters |
| PostForm.SlideTitleErrors | app/Filament/Resources/PostResource.php:60-64 | every reported slide title exceeds 255 characters, and every such non-blank slide title is reported at its position |
| PostForm.Validate | app/Filament/Resources/PostResource.php:37-145 | each rule's error is reported exactly when its condition fails, and a submission is accepted exactly when the title is present, at most 255 characters long, there is at least one slide, and no slide title is too long |
| PostForm.AcceptedTitleAndSlides | app/Filament/Resources/PostResource.php:37-40 | an accepted submission has a non-empty title of at most 255 characters and at least one slide |
| PostForm.NewFormNeedsOnlyTitle | app/Filament/Resources/PostResource.php:144-145 | a new form has one slide and is rejected only for its missing title |
| PostForm.VisibilityRules | app/Filament/Resources/PostResource.php:84-123 | the editor is visible exactly when `text_active` is present and true; the zoom toggle and the upload exactly when `image_active` is; each depends on its own toggle only (`$get` reads an absent key as null) |
| PostForm.DefaultSlideShowsEverything | app/Filament/Resources/PostResource.php:68-85 | a freshly added slide shows the editor, the zoom toggle and the upload |
| PostForm.SearchPosition | app/Filament/Resources/PostResource.php:130-131 | `array_search(...) + 1` is the 1-based position of the first equal item, or 1 when the item is absent |
| PostForm.ItemLabel | app/Filament/Resources/PostResource.php:127-132 | a non-empty slide title is the label; otherwise the label is "Slide n" for the first equal item's position n, or "Slide 1" when the item is absent |
| PostForm.LabelIsPositionIffFirstCopy | app/Filament/Resources/PostResource.php:127-132 | an untitled slide is labelled with its own position exactly when no earlier slide equals it |
| PostForm.ClonesShareLabel | app/Filament/Resources/PostResource.php:127-136 | identical untitled slides share one label, which is not the later copy's own position |
| PostForm.StatusFilter | app/Filament/Resources/PostResource.php:222-227 | with no choice all posts are shown; otherwise exactly the posts whose status matches the choice |
| PostForm.SetStatus | app/Filament/Resources/PostResource.php:256 | the record gets the new status and nothing else changes; a record already in that status is not saved, so its `updated_at` is kept |
| PostForm.BulkSetStatus | app/Filament/Resources/PostResource.php:254-258 | every selected record gets the new status with no other change beyond `updated_at`, and unselected records are untouched |
| PostForm.Activate | app/Filament/Resources/PostResource.php:251-261 | "Publish Selected" puts every selected record in the active scope and leaves the others as they were |
| PostForm.Deactivate | app/Filament/Resources/PostResource.php:263-273 | "Move to Draft" puts every selected record in the inactive scope and leaves the others as they were |
| PostForm.BulkSetStatusIdempotent | app/Filament/Resources/PostResource.php:254-258 | repeating a bulk status action, at any later time, changes nothing |
| PostForm.ActivateIdempotent | app/Filament/Resources/PostResource.php:251-258 | "Publish Selected" is idempotent |
| PostForm.DeactivateIdempotent | app/Filament/Resources/PostResource.php:263-270 | "Move to Draft" is idempotent |
| PostForm.TitleTooltip | app/Filament/Resources/PostResource.php:174-177 | the tooltip is the full title exactly when the title is longer than 40 bytes |
| PostForm.TooltipByCharacters | app/Filament/Resources/PostResource.php:174-177 | a title longer than 40 characters always has a tooltip, and for ASCII titles the rule is exactly "more than 40 characters" |
| PostForm.TooltipCountsBytes | app/Filament/Resources/PostResource.php:176 | a 21-character title of two-byte characters gets a tooltip: the threshold counts bytes, not characters |

## Left out

- `Str::slug`, `strip_tags`, `Str::limit`, `filter_var` and `toDateTimeString()` are library code. They are uninterpreted function parameters.
- The media library is left out: `getFirstMedia`, URL generation and the `thumb` (300×300) and `story` (800×600) conversions in `registerMediaConversions`. This is image processing and storage. A slide's media is an optional value, and the URL of a conversion is a parameter.
- Filament rendering is left out: sections, grids, toolbar buttons, icons, colours, modals, column sizes and the `limit(40)` display truncation. So are the `has_effects` filter, which queries a `has_zoom_effects` column (the migration creating the `posts` table is not part of this model), and the view, edit and delete actions.
- The relationships `posts()` and `post()` are left out. They are framework glue with no rules of their own.
- The resource's `category` relation and the `content_with_images`, `featured_image` and `has_zoom_effects` accessors are not defined in the post model. The model passes their values in as a caller-supplied record.
- Routing, migration mechanics and the welcome page are left out. The migrations only shape the datatypes: the nullable `cta_link`, the non-null `cta_button_show` and the cascade on category delete.
- The concurrent-insert race in the slug loop is a database concern. The model runs one sequential transaction.
- `isDirty` is attribute inequality between the loaded and the edited record. Eloquent's cast-aware comparison is not modelled.
- A null category slug is represented as the empty string. Both are `empty()`, so for the record being saved the hooks treat them alike; for stored rows they differ, as the next two lines say.
- Categories.Creating: the collision query `where('slug', ...)->exists()` is modelled as exact string equality. Under a case-insensitive collation a stored `Amazing-Journey` also makes `amazing-journey` taken, and the code then picks a suffixed slug where the model promises the bare one. A stored NULL slug is modelled as "", so it counts as taking the slug "", while `where('slug', '')` never matches NULL: for a name that `Str::slug` maps to "", the code can keep "" where the model probes "-1".
- Categories.Updating: the same two differences apply to its collision query over the other rows: exact string equality instead of the database collation, and a stored NULL slug counted as "".
- Posts.ExcerptWithLimit leaves `Str::limit` with a numeric limit uninterpreted; only its null-limit behaviour, which the as-written read reaches, is spelled out (as `StrLimit`).
- PostForm.ItemLabel reads the request payload as a positional list. `array_search`'s loose comparison is modelled as structural equality, and the keyed shape of Filament's repeater state is not modelled.
- PostForm.Validate models `required` as failing on null or a `trim()`-blank string and then skipping the field's remaining rules. `max` counts characters and is skipped for a blank optional value. Livewire's request plumbing is not modelled.
- Listing.SortNewestFirst orders ties in `created_at` by input position. The database leaves that order unspecified; SortNewestFirst's contract states only the ordering and the permutation, and Listing.ListedIsTheOnlyOrder shows the choice is immaterial when no two active posts share a timestamp.
- Listing.ApiPagesCoverActivePosts assumes that every page request orders tied posts the same way, because each `GetPosts` call sorts with the one fixed tie order. With shared `created_at` values, separate `LIMIT`/`OFFSET` queries can repeat or skip a post; Listing.ListedIsTheOnlyOrder states the tie-free case, in which the assumption holds for any database.
- StoryResource.Respond keeps the numeric `meta` fields and whether `links.prev`/`links.next` are non-null. The URLs in `links`, and `meta.path` and `meta.links`, are URL generation and are left out.
- Post slug generation and SEO auto-fill have no code in the post model or the admin resource, so there is nothing to model.

## Findings

| source | as written | input that shows it | evidently intended | confidence | as-written member | corrected member |
|---|---|---|---|---|---|---|
| app/Models/Post.php:77-82 | `getExcerptAttribute($limit = 150)` is a legacy accessor, so `$post->excerpt` calls it with the stored attribute value, null, and `Str::limit($text, null)` turns every non-empty text into "..." | one slide `{content: "<p>Hello</p>", text_active: true}` gives "..." | the declared default of 150, giving "Hello" | not executed; follows from Eloquent passing the attribute value to `get...Attribute` accessors | Posts.Excerpt, Posts.ExcerptAsWrittenHidesText | Posts.IntendedExcerpt |

=== FILE: category.dfy ===
/**
 The category model's slug hooks (app/Models/Category.php).

 Before insert, an empty slug is replaced by `Str::slug(name)`; while that slug
 is already stored, the candidates `base-1`, `base-2`, ... are tried in turn.
 Before update, the same search runs, excluding the record's own row, but only
 when the name changed and the slug did not. `Str::slug` is a parameter.
 */
module Categories {
  import opened Php

  datatype Category = Category(id: nat, name: string, slug: string, isActive: bool)

  /** `empty($category->slug)`; a null slug is modelled as "", and "0" is empty in PHP too. */
  predicate SlugIsEmpty(slug: string)
  {
    slug == "" || slug == "0"
  }

  /** The slug the loop tries on its k-th probe: the base itself, then `base-k`. */
  function Candidate(base: string, k: nat): (s: string)
  {
    if k == 0 then base else base + "-" + NatToString(k)
  }

  /** Slugs of the stored rows the collision query sees; on update the record's own id is excluded. */
  function TakenSlugs(table: seq<Category>, except: Option<nat>): (taken: set<string>)
  {
    set i | 0 <= i < |table| && (except.None? || table[i].id != except.value) :: table[i].slug
  }

  /** `s` is the first candidate for `base` that no row in `taken` holds. */
  ghost predicate IsMinimalFree(s: string, base: string, taken: set<string>)
  {
    exists k: nat ::
      && s == Candidate(base, k)
      && s !in taken
      && forall j :: 0 <= j < k ==> Candidate(base, j) in taken
  }

  /** Different probes never produce the same slug. */
  lemma {:induction false} CandidateInjective(base: string, j: nat, k: nat)
    requires Candidate(base, j) == Candidate(base, k)
    ensures j == k
  {
    if j != 0 && k != 0 {
      var s := Candidate(base, j);
      assert NatToString(j) == s[|base| + 1..] == NatToString(k);
      NatToStringInjective(j, k);
    }
  }

  /** The slugs of the first k probes. */
  function Probed(base: string, k: nat): (probed: set<string>)
  {
    if k == 0 then {} else Probed(base, k - 1) + {Candidate(base, k - 1)}
  }

  lemma {:induction false} ProbedContents(base: string, k: nat)
    ensures forall j :: 0 <= j < k ==> Candidate(base, j) in Probed(base, k)
    ensures forall j: nat :: k <= j ==> Candidate(base, j) !in Probed(base, k)
  {
    if k > 0 {
      ProbedContents(base, k - 1);
      forall j: nat | k <= j
        ensures Candidate(base, j) != Candidate(base, k - 1)
      {
        if Candidate(base, j) == Candidate(base, k - 1) {
          CandidateInjective(base, j, k - 1);
        }
      }
    }
  }

  /** The first k probes are k different slugs. */
  lemma {:induction false} ProbedSize(base: string, k: nat)
    ensures |Probed(base, k)| == k
  {
    if k > 0 {
      ProbedSize(base, k - 1);
      ProbedContents(base, k - 1);
    }
  }

  lemma SubsetSize<T>(a: set<T>, b: set<T>)
    requires a <= b
    ensures |a| <= |b|
  {
    assert b == a + (b - a);
  }

  /**
   The suffix loop, probing from k on. It stops: each probe that collides is a
   different stored slug, so at most |taken| probes collide.
   */
  function FirstFree(base: string, taken: set<string>, k: nat): (r: nat)
    requires Probed(base, k) <= taken
    ensures k <= r <= |taken|
    ensures Candidate(base, r) !in taken
    ensures forall j :: k <= j < r ==> Candidate(base, j) in taken
    decreases |taken| - k
  {
    ProbedSize(base, k);
    SubsetSize(Probed(base, k), taken);
    if Candidate(base, k) !in taken then k
    else
      ProbedSize(base, k + 1);
      SubsetSize(Probed(base, k + 1), taken);
      FirstFree(base, taken, k + 1)
  }

  /** The slug the hook settles on: the first probe of `base` that is not taken. */
  function UniqueSlug(base: string, taken: set<string>): (s: string)
    ensures s !in taken
    ensures IsMinimalFree(s, base, taken)
  {
    var k := FirstFree(base, taken, 0);
    assert forall j :: 0 <= j < k ==> Candidate(base, j) in taken;
    Candidate(base, k)
  }

  /** The minimality condition pins the slug down: at most one slug satisfies it. */
  lemma MinimalFreeUnique(s1: string, s2: string, base: string, taken: set<string>)
    requires IsMinimalFree(s1, base, taken) && IsMinimalFree(s2, base, taken)
    ensures s1 == s2
  {
    var k1: nat :| s1 == Candidate(base, k1) && s1 !in taken
      && forall j :: 0 <= j < k1 ==> Candidate(base, j) in taken;
    var k2: nat :| s2 == Candidate(base, k2) && s2 !in taken
      && forall j :: 0 <= j < k2 ==> Candidate(base, j) in taken;
    if k1 < k2 {
      assert false;
    } else if k2 < k1 {
      assert false;
    }
  }

  /** The `creating` hook. */
  function Creating(c: Category, table: seq<Category>, slugify: string -> string): (r: Category)
    ensures !SlugIsEmpty(c.slug) ==> r == c
    ensures SlugIsEmpty(c.slug) ==> r == c.(slug := r.slug)
    ensures SlugIsEmpty(c.slug) ==> IsMinimalFree(r.slug, slugify(c.name), TakenSlugs(table, None))
  {
    if SlugIsEmpty(c.slug) then c.(slug := UniqueSlug(slugify(c.name), TakenSlugs(table, None)))
    else c
  }

  /** `isDirty('name') && !isDirty('slug')`: the only case in which the update hook touches the slug. */
  predicate RegeneratesSlug(original: Category, c: Category)
  {
    c.name != original.name && c.slug == original.slug
  }

  /** The `updating` hook: `original` holds the attributes as loaded, `c` the attributes about to be saved. */
  function Updating(original: Category, c: Category, table: seq<Category>, slugify: string -> string): (r: Category)
    ensures !RegeneratesSlug(original, c) ==> r == c
    ensures RegeneratesSlug(original, c) ==> r == c.(slug := r.slug)
    ensures RegeneratesSlug(original, c) ==> IsMinimalFree(r.slug, slugify(c.name), TakenSlugs(table, Some(c.id)))
  {
    if RegeneratesSlug(original, c) then c.(slug := UniqueSlug(slugify(c.name), TakenSlugs(table, Some(c.id))))
    else c
  }

  /** Every generated slug is `base` or `base-` followed by decimal digits: suffixes never stack. */
  lemma CreatingSlugShape(c: Category, table: seq<Category>, slugify: string -> string)
    requires SlugIsEmpty(c.slug)
    ensures var base := slugify(c.name); var s := Creating(c, table, slugify).slug;
      && |base| <= |s| && s[..|base|] == base
      && (|s| == |base| || (|s| >= |base| + 2 && s[|base|] == '-' && forall i :: |base| < i < |s| ==> IsDigit(s[i])))
  {
    var base := slugify(c.name);
    var s := Creating(c, table, slugify).slug;
    var k :| s == Candidate(base, k);
    if k != 0 {
      var t := NatToString(k);
      assert s == base + "-" + t;
      forall i | |base| < i < |s| ensures IsDigit(s[i]) {
        assert s[i] == t[i - |base| - 1];
      }
    }
  }

  /** The collision query sees at most one slug per stored row. */
  lemma {:induction false} TakenSlugsSize(table: seq<Category>, except: Option<nat>)
    ensures |TakenSlugs(table, except)| <= |table|
  {
    if table != [] {
      var n := |table| - 1;
      TakenSlugsSize(table[..n], except);
      var before := TakenSlugs(table[..n], except);
      forall s | s in TakenSlugs(table, except) ensures s in before + {table[n].slug} {
        var i :| 0 <= i < |table| && (except.None? || table[i].id != except.value) && table[i].slug == s;
        if i < n {
          assert table[..n][i] == table[i];
        }
      }
      SubsetSize(TakenSlugs(table, except), before + {table[n].slug});
    }
  }

  /** The loop stops after at most one probe per stored row: the suffix never exceeds the number of rows. */
  lemma CreatingSuffixBound(c: Category, table: seq<Category>, slugify: string -> string)
    requires SlugIsEmpty(c.slug)
    ensures exists k :: 0 <= k <= |table| && Creating(c, table, slugify).slug == Candidate(slugify(c.name), k)
  {
    var taken := TakenSlugs(table, None);
    var k := FirstFree(slugify(c.name), taken, 0);
    TakenSlugsSize(table, None);
    assert Creating(c, table, slugify).slug == Candidate(slugify(c.name), k);
  }

  /** A freshly generated slug collides with no stored slug. */
  lemma CreatingIsFresh(c: Category, table: seq<Category>, slugify: string -> string)
    requires SlugIsEmpty(c.slug)
    ensures forall i :: 0 <= i < |table| ==> table[i].slug != Creating(c, table, slugify).slug
  {
    var taken := TakenSlugs(table, None);
    forall i | 0 <= i < |table| ensures table[i].slug in taken { }
  }

  /** A caller-supplied slug is kept as is and is not checked against the table. */
  lemma SuppliedSlugNotChecked(slugify: string -> string)
    ensures var table := [Category(1, "News", "news", true)];
      var c := Category(2, "Latest", "news", true);
      Creating(c, table, slugify).slug in TakenSlugs(table, None)
  {
    var table := [Category(1, "News", "news", true)];
    assert table[0].slug in TakenSlugs(table, None);
  }

  /** Two categories named "Amazing Journey": the second receives the `-1` suffix. */
  lemma AmazingJourneyTwice(slugify: string -> string)
    requires slugify("Amazing Journey") == "amazing-journey"
    ensures var first := Creating(Category(1, "Amazing Journey", "", true), [], slugify);
      && first.slug == "amazing-journey"
      && Creating(Category(2, "Amazing Journey", "", true), [first], slugify).slug == "amazing-journey-1"
  {
    var first := Creating(Category(1, "Amazing Journey", "", true), [], slugify);
    assert TakenSlugs([], None) == {};
    MinimalFreeUnique(first.slug, Candidate("amazing-journey", 0), "amazing-journey", {});
    var taken := TakenSlugs([first], None);
    assert [first][0].slug in taken;
    assert "amazing-journey-1" !in taken;
    assert NatToString(1) == "1";
    assert IsMinimalFree("amazing-journey-1", "amazing-journey", taken) by {
      assert Candidate("amazing-journey", 1) == "amazing-journey-1";
    }
    var second := Creating(Category(2, "Amazing Journey", "", true), [first], slugify);
    MinimalFreeUnique(second.slug, "amazing-journey-1", "amazing-journey", taken);
  }

  /** When no other row holds the base slug, the update keeps it unsuffixed, even if this row already holds it. */
  lemma UpdatingOwnSlugUnsuffixed(original: Category, c: Category, table: seq<Category>, slugify: string -> string)
    requires RegeneratesSlug(original, c)
    requires forall i :: 0 <= i < |table| && table[i].id != c.id ==> table[i].slug != slugify(c.name)
    ensures Updating(original, c, table, slugify).slug == slugify(c.name)
  {
    var base := slugify(c.name);
    var taken := TakenSlugs(table, Some(c.id));
    assert base !in taken;
    assert IsMinimalFree(base, base, taken) by {
      assert base == Candidate(base, 0);
    }
    MinimalFreeUnique(Updating(original, c, table, slugify).slug, base, base, taken);
  }

  predicate SlugsDistinct(table: seq<Category>)
  {
    forall i, j :: 0 <= i < j < |table| ==> table[i].slug != table[j].slug
  }

  predicate IdsDistinct(table: seq<Category>)
  {
    forall i, j :: 0 <= i < j < |table| ==> table[i].id != table[j].id
  }

  /** The row with `c`'s id replaced by `c`. */
  function Save(table: seq<Category>, c: Category): (r: seq<Category>)
    ensures |r| == |table|
    ensures forall i :: 0 <= i < |table| ==> r[i] == if table[i].id == c.id then c else table[i]
  {
    seq(|table|, i requires 0 <= i < |table| => if table[i].id == c.id then c else table[i])
  }

  /** Inserting a category whose slug was generated keeps the slugs of the table distinct. */
  lemma CreatingKeepsSlugsDistinct(c: Category, table: seq<Category>, slugify: string -> string)
    requires SlugsDistinct(table)
    requires SlugIsEmpty(c.slug)
    ensures SlugsDistinct(table + [Creating(c, table, slugify)])
  {
    CreatingIsFresh(c, table, slugify);
  }

  /** Saving an update whose slug was regenerated keeps the slugs of the table distinct. */
  lemma UpdatingKeepsSlugsDistinct(original: Category, c: Category, table: seq<Category>, slugify: string -> string)
    requires SlugsDistinct(table) && IdsDistinct(table)
    requires RegeneratesSlug(original, c)
    ensures SlugsDistinct(Save(table, Updating(original, c, table, slugify)))
  {
    var u := Updating(original, c, table, slugify);
    var taken := TakenSlugs(table, Some(c.id));
    assert u.slug !in taken;
    var r := Save(table, u);
    forall i, j | 0 <= i < j < |r| ensures r[i].slug != r[j].slug {
      if table[i].id == c.id {
        assert table[j].slug in taken;
      } else if table[j].id == c.id {
        assert table[i].slug in taken;
      }
    }
  }
}

=== FILE: category_delete.dfy ===
/**
 Deleting a category. The foreign key from `posts.category_id` is declared
 with `cascadeOnDelete()`, so the database removes the category's posts with it.
 */
module CategoryDeletion {
  import Categories
  import Posts
  import Seqs

  predicate HasCategory(cats: seq<Categories.Category>, id: nat)
  {
    exists j :: 0 <= j < |cats| && cats[j].id == id
  }

  /** Every post refers to a stored category. */
  predicate PostsReferToCategories(cats: seq<Categories.Category>, posts: seq<Posts.Post>)
  {
    forall i :: 0 <= i < |posts| ==> HasCategory(cats, posts[i].categoryId)
  }

  /** The tables after deleting category `id`. */
  function DeleteCategory(cats: seq<Categories.Category>, posts: seq<Posts.Post>, id: nat)
    : (r: (seq<Categories.Category>, seq<Posts.Post>))
    ensures forall j :: 0 <= j < |r.0| ==> r.0[j].id != id && r.0[j] in cats
    ensures forall j :: 0 <= j < |cats| && cats[j].id != id ==> cats[j] in r.0
    ensures forall i :: 0 <= i < |r.1| ==> r.1[i].categoryId != id && r.1[i] in posts
    ensures forall i :: 0 <= i < |posts| && posts[i].categoryId != id ==> posts[i] in r.1
  {
    (Seqs.Filter(cats, (c: Categories.Category) => c.id != id),
     Seqs.Filter(posts, (p: Posts.Post) => p.categoryId != id))
  }

  /** The cascade keeps referential integrity: no surviving post refers to a missing category. */
  lemma DeleteKeepsReferences(cats: seq<Categories.Category>, posts: seq<Posts.Post>, id: nat)
    requires PostsReferToCategories(cats, posts)
    ensures PostsReferToCategories(DeleteCategory(cats, posts, id).0, DeleteCategory(cats, posts, id).1)
  {
    var r := DeleteCategory(cats, posts, id);
    forall i | 0 <= i < |r.1|
      ensures HasCategory(r.0, r.1[i].categoryId)
    {
      var p := r.1[i];
      var k :| 0 <= k < |posts| && posts[k] == p;
      var j :| 0 <= j < |cats| && cats[j].id == p.categoryId;
      assert cats[j] in r.0;
      var m :| 0 <= m < |r.0| && r.0[m] == cats[j];
      assert r.0[m].id == r.1[i].categoryId;
    }
  }

  /** Deletion keeps exactly the posts of the other categories, each copy once. */
  lemma DeleteKeepsOtherPostsExactly(cats: seq<Categories.Category>, posts: seq<Posts.Post>, id: nat, p: Posts.Post)
    ensures multiset(DeleteCategory(cats, posts, id).1)[p] == if p.categoryId != id then multiset(posts)[p] else 0
  {
    Seqs.FilterCount(posts, (q: Posts.Post) => q.categoryId != id, p);
  }
}

=== FILE: listing.dfy ===
/**
 The public listing (app/Http/Controllers/WebStoriesController.php):
 `Post::where('is_active', 1)->latest()->paginate(10)` as a pure list function.
 */
module Listing {
  import opened Posts

  const PerPage := 10

  /** Ordered by `created_at`, newest first. */
  predicate NewestFirst(s: seq<Post>)
  {
    forall i, j :: 0 <= i < j < |s| ==> s[i].createdAt >= s[j].createdAt
  }

  function InsertByDate(p: Post, s: seq<Post>): (r: seq<Post>)
    requires NewestFirst(s)
    ensures NewestFirst(r)
    ensures |r| == |s| + 1
    ensures multiset(r) == multiset(s) + multiset{p}
  {
    if s == [] || p.createdAt >= s[0].createdAt then [p] + s
    else
      var rest := InsertByDate(p, s[1..]);
      assert multiset(s) == multiset{s[0]} + multiset(s[1..]) by {
        assert s == [s[0]] + s[1..];
      }
      BoundedByHead(p, s, rest);
      ConsNewestFirst(s[0], rest);
      [s[0]] + rest
  }

  lemma ConsNewestFirst(h: Post, rest: seq<Post>)
    requires NewestFirst(rest)
    requires forall k :: 0 <= k < |rest| ==> rest[k].createdAt <= h.createdAt
    ensures NewestFirst([h] + rest)
  {
    var r := [h] + rest;
    forall i, j | 0 <= i < j < |r| ensures r[i].createdAt >= r[j].createdAt {
      if i == 0 {
        assert r[j] == rest[j - 1];
      } else {
        assert r[i] == rest[i - 1] && r[j] == rest[j - 1];
      }
    }
  }

  /** Everything inserted behind the head of a newest-first list is no newer than that head. */
  lemma BoundedByHead(p: Post, s: seq<Post>, rest: seq<Post>)
    requires NewestFirst(s) && s != [] && p.createdAt < s[0].createdAt
    requires multiset(rest) == multiset(s[1..]) + multiset{p}
    ensures forall k :: 0 <= k < |rest| ==> rest[k].createdAt <= s[0].createdAt
  {
    forall k | 0 <= k < |rest| ensures rest[k].createdAt <= s[0].createdAt {
      var x := rest[k];
      assert x in multiset(rest);
      if x != p {
        assert x in multiset(s[1..]);
        var m :| 0 <= m < |s[1..]| && s[1..][m] == x;
        assert x == s[m + 1];
      }
    }
  }

  /** Sorting only reorders: every element of the result comes from the input. */
  lemma SortedFromInput(s: seq<Post>)
    ensures forall i :: 0 <= i < |SortNewestFirst(s)| ==> SortNewestFirst(s)[i] in s
  {
    var r := SortNewestFirst(s);
    forall i | 0 <= i < |r| ensures r[i] in s {
      assert r[i] in multiset(r);
    }
  }

  /** `latest()`: the posts ordered newest first; posts with equal timestamps keep their relative order. */
  function SortNewestFirst(s: seq<Post>): (r: seq<Post>)
    ensures NewestFirst(r)
    ensures |r| == |s|
    ensures multiset(r) == multiset(s)
  {
    if s == [] then []
    else
      assert s == [s[0]] + s[1..];
      InsertByDate(s[0], SortNewestFirst(s[1..]))
  }

  /** A page of results together with the paginator's counts. */
  datatype Page = Page(data: seq<Post>, total: nat, perPage: nat, currentPage: nat, lastPage: nat)

  /** The page number the paginator uses: a requested page below 1 falls back to page 1. */
  function ResolvePage(requested: int): (r: nat)
    ensures r >= 1
    ensures requested >= 1 ==> r == requested
  {
    if requested >= 1 then requested else 1
  }

  /** `max(ceil(total / perPage), 1)`. */
  function LastPage(total: nat): (r: nat)
    ensures r >= 1
    ensures total <= r * PerPage
    ensures total > 0 ==> (r - 1) * PerPage < total
  {
    if total == 0 then 1 else (total + PerPage - 1) / PerPage
  }

  function Min(a: nat, b: nat): (m: nat)
  {
    if a <= b then a else b
  }

  /**
   The items of page `page` (1-based) of `s`: `offset((page - 1) * 10)->limit(10)`,
   that is up to ten posts starting at the offset, and none past the end.
   */
  function PageItems(s: seq<Post>, page: nat): (r: seq<Post>)
    requires page >= 1
    ensures |r| <= PerPage
    ensures |r| == if (page - 1) * PerPage >= |s| then 0 else Min(PerPage, |s| - (page - 1) * PerPage)
    ensures forall k :: 0 <= k < |r| ==> (page - 1) * PerPage + k < |s| && r[k] == s[(page - 1) * PerPage + k]
  {
    s[Min((page - 1) * PerPage, |s|)..Min(page * PerPage, |s|)]
  }

  function Paginate(s: seq<Post>, requested: int): (r: Page)
    ensures |r.data| <= PerPage
    ensures r.total == |s| && r.perPage == PerPage
    ensures r.currentPage >= 1 && r.lastPage >= 1
    ensures r.currentPage == ResolvePage(requested)
    ensures r.lastPage == LastPage(r.total)
    ensures r.data == PageItems(s, r.currentPage)
    ensures forall i :: 0 <= i < |r.data| ==> r.data[i] in s
  {
    var page := ResolvePage(requested);
    Page(PageItems(s, page), |s|, PerPage, page, LastPage(|s|))
  }

  /** The controller action: active posts, newest first, ten per page. */
  function GetPosts(posts: seq<Post>, requested: int): (r: Page)
    ensures |r.data| <= PerPage
    ensures forall i :: 0 <= i < |r.data| ==> r.data[i].isActive && r.data[i] in posts
    ensures NewestFirst(r.data)
    ensures r.total == |Active(posts)|
  {
    SortedFromInput(Active(posts));
    Paginate(Listed(posts), requested)
  }

  /** The list the controller pages through. */
  function Listed(posts: seq<Post>): (r: seq<Post>)
  {
    SortNewestFirst(Active(posts))
  }

  /** Pages 1 to n, one after the other. */
  function PagesUpTo(s: seq<Post>, n: nat): (r: seq<Post>)
  {
    if n == 0 then [] else PagesUpTo(s, n - 1) + Paginate(s, n).data
  }

  lemma {:induction false} PagesUpToPrefix(s: seq<Post>, n: nat)
    ensures PagesUpTo(s, n) == s[..Min(n * PerPage, |s|)]
  {
    if n > 0 {
      PagesUpToPrefix(s, n - 1);
      var a := Min((n - 1) * PerPage, |s|);
      var b := Min(n * PerPage, |s|);
      assert s[..b] == s[..a] + s[a..b];
    }
  }

  /** Reading every page in turn yields the whole list exactly once. */
  lemma AllPagesYieldList(s: seq<Post>)
    ensures PagesUpTo(s, LastPage(|s|)) == s
  {
    PagesUpToPrefix(s, LastPage(|s|));
  }

  /** Requesting pages 1, 2, ... up to the last page, one after the other. */
  function ApiPagesUpTo(posts: seq<Post>, n: nat): (r: seq<Post>)
  {
    if n == 0 then [] else ApiPagesUpTo(posts, n - 1) + GetPosts(posts, n).data
  }

  /**
   Every page of the public listing concatenated is the active posts, newest first:
   no active post is lost or duplicated, and no inactive post appears.
   */
  lemma ApiPagesCoverActivePosts(posts: seq<Post>)
    ensures var all := ApiPagesUpTo(posts, GetPosts(posts, 1).lastPage);
      && all == SortNewestFirst(Active(posts))
      && multiset(all) == multiset(Active(posts))
  {
    var n := GetPosts(posts, 1).lastPage;
    ApiPagesMatch(posts, n);
    AllPagesYieldList(Listed(posts));
  }

  /** No two different posts of `s` share a `created_at` value. */
  predicate NoTies(s: seq<Post>)
  {
    forall i, j :: 0 <= i < |s| && 0 <= j < |s| && s[i].createdAt == s[j].createdAt ==> s[i] == s[j]
  }

  /** Reordering a list keeps it free of ties. */
  lemma NoTiesPermutation(a: seq<Post>, b: seq<Post>)
    requires NoTies(a) && multiset(a) == multiset(b)
    ensures NoTies(b)
  {
    forall i, j | 0 <= i < |b| && 0 <= j < |b| && b[i].createdAt == b[j].createdAt
      ensures b[i] == b[j]
    {
      assert b[i] in multiset(a) && b[j] in multiset(a);
      var p :| 0 <= p < |a| && a[p] == b[i];
      var q :| 0 <= q < |a| && a[q] == b[j];
    }
  }

  /** Two newest-first orderings of one tie-free collection start with the same post. */
  lemma HeadsAgree(a: seq<Post>, b: seq<Post>)
    requires NoTies(a) && NewestFirst(a) && NewestFirst(b)
    requires multiset(a) == multiset(b) && a != []
    ensures b != [] && a[0] == b[0]
  {
    assert |a| == |multiset(a)| == |b|;
    assert a[0] in multiset(b) && b[0] in multiset(a);
    var j :| 0 <= j < |b| && b[j] == a[0];
    var k :| 0 <= k < |a| && a[k] == b[0];
    assert a[0].createdAt == a[k].createdAt;
  }

  /** Removing an equal head from two permutations of each other leaves permutations. */
  lemma TailsPermutation(a: seq<Post>, b: seq<Post>)
    requires a != [] && b != [] && a[0] == b[0] && multiset(a) == multiset(b)
    ensures multiset(a[1..]) == multiset(b[1..])
  {
    assert a == [a[0]] + a[1..] && b == [b[0]] + b[1..];
    assert multiset(a[1..]) == multiset(a) - multiset{a[0]};
    assert multiset(b[1..]) == multiset(b) - multiset{a[0]};
  }

  /** Without ties, newest first admits a single ordering of a given collection of posts. */
  lemma {:induction false} NewestFirstUnique(a: seq<Post>, b: seq<Post>)
    requires NoTies(a) && NewestFirst(a) && NewestFirst(b)
    requires multiset(a) == multiset(b)
    ensures a == b
    decreases |a|
  {
    if a == [] {
      assert |b| == |multiset(b)| == 0;
    } else {
      HeadsAgree(a, b);
      TailsPermutation(a, b);
      NewestFirstUnique(a[1..], b[1..]);
      assert a == [a[0]] + a[1..] && b == [b[0]] + b[1..];
    }
  }

  /**
   When no two active posts share a `created_at`, `latest()` leaves the database
   no choice: any newest-first ordering of the active posts is the list the model
   pages through, so separate page requests agree on it.
   */
  lemma ListedIsTheOnlyOrder(posts: seq<Post>, other: seq<Post>)
    requires NoTies(Active(posts))
    requires NewestFirst(other) && multiset(other) == multiset(Active(posts))
    ensures other == Listed(posts)
  {
    NoTiesPermutation(Active(posts), other);
    NewestFirstUnique(other, Listed(posts));
  }

  lemma GetPostsPagesListed(posts: seq<Post>, requested: int)
    ensures GetPosts(posts, requested) == Paginate(Listed(posts), requested)
  {
  }

  lemma {:induction false} ApiPagesMatch(posts: seq<Post>, n: nat)
    ensures ApiPagesUpTo(posts, n) == PagesUpTo(Listed(posts), n)
  {
    if n > 0 {
      GetPostsPagesListed(posts, n);
      assert GetPosts(posts, n).data == Paginate(Listed(posts), n).data;
      ApiPagesMatch(posts, n - 1);
    }
  }

  /** A page past the last one is empty. */
  lemma PagePastLastIsEmpty(posts: seq<Post>, requested: int)
    requires requested > LastPage(|Active(posts)|)
    ensures GetPosts(posts, requested).data == []
  {
  }
}

=== FILE: php.dfy ===
/**
 Values and conversions of the PHP runtime that the application code relies on:
 nullable values, `empty()`, truthiness, integer-to-string conversion, `trim()`
 blankness and `strlen()`.
 */
module Php {

  /** A value that may be PHP `null`. */
  datatype Option<+T> = None | Some(value: T) {

    /** The `??` operator: the value, or `default` when null. */
    function GetOr(default: T): (v: T)
    {
      match this
      case Some(v) => v
      case None => default
    }
  }

  /**
   An element of a decoded JSON array read by key: the key may be absent, or
   present and hold null.
   */
  datatype Entry<+T> = Absent | Present(read: Option<T>) {

    /** What `isset`, `??` and Filament's `$get` see: an absent key reads as null. */
    function OrNull(): (v: Option<T>)
    {
      match this
      case Present(v) => v
      case Absent => None
    }
  }

  /**
   The outcome of code that indexes an array with `$a['key']`: its value, or the
   `ErrorException` Laravel's error handler raises from the "Undefined array key"
   warning when the key is absent.
   */
  datatype Outcome<+T> = Ok(value: T) | UndefinedKey(key: string)

  /** `empty($s)` for a nullable string: null, "" and "0" are all empty. */
  predicate EmptyString(s: Option<string>)
  {
    s.None? || s.value == "" || s.value == "0"
  }

  /** Truthiness of a nullable toggle: null is false. */
  predicate Truthy(b: Option<bool>)
  {
    b == Some(true)
  }

  /** The characters `trim()` strips by default. */
  predicate IsTrimmed(c: char)
  {
    c == ' ' || c == '\t' || c == '\n' || c == '\r' || c == '\0' || c == '\U{0B}'
  }

  /** `trim($s) === ''`: the string consists of trimmable characters only. */
  predicate IsBlank(s: string)
  {
    forall i :: 0 <= i < |s| ==> IsTrimmed(s[i])
  }

  predicate IsDigit(c: char)
  {
    '0' <= c <= '9'
  }

  function DigitChar(d: nat): (c: char)
    requires d < 10
    ensures IsDigit(c)
    ensures c as int - '0' as int == d
  {
    "0123456789"[d]
  }

  /** PHP's conversion of a non-negative integer to its decimal string (no leading zeros). */
  function NatToString(n: nat): (r: string)
    ensures 1 <= |r|
    ensures n < 10 <==> |r| == 1
    ensures forall i :: 0 <= i < |r| ==> IsDigit(r[i])
    decreases n
  {
    if n < 10 then [DigitChar(n)] else NatToString(n / 10) + [DigitChar(n % 10)]
  }

  /** Distinct integers print as distinct strings. */
  lemma {:induction false} NatToStringInjective(a: nat, b: nat)
    requires NatToString(a) == NatToString(b)
    ensures a == b
    decreases a
  {
    var s := NatToString(a);
    if a < 10 {
      assert |NatToString(b)| == 1;
      assert DigitChar(a) == s[0] == DigitChar(b);
    } else {
      assert b >= 10;
      var last := |s| - 1;
      assert s == NatToString(a / 10) + [DigitChar(a % 10)];
      assert s == NatToString(b / 10) + [DigitChar(b % 10)];
      assert DigitChar(a % 10) == s[last] == DigitChar(b % 10);
      assert NatToString(a / 10) == s[..last] == NatToString(b / 10);
      NatToStringInjective(a / 10, b / 10);
    }
  }

  /**
   `Str::limit($value, $limit)` with its default ending "...". A numeric limit is
   `limitTo`, left uninterpreted. With a null limit, `mb_strwidth($value) <= null`
   compares as booleans and holds only for a value of width 0, the empty string,
   and `mb_strimwidth($value, 0, null)` keeps nothing, so every non-empty value
   becomes "...".
   */
  function StrLimit(value: string, limit: Option<nat>, limitTo: (string, nat) -> string): (r: string)
    ensures limit.None? ==> (r == "" <==> value == "") && (value != "" ==> r == "...")
    ensures limit.Some? ==> r == limitTo(value, limit.value)
  {
    match limit
    case Some(n) => limitTo(value, n)
    case None => if value == "" then "" else "..."
  }

  /** Number of bytes the UTF-8 encoding of `c` takes. */
  function Utf8Width(c: char): (n: nat)
  {
    if c as int < 0x80 then 1
    else if c as int < 0x800 then 2
    else if c as int < 0x1_0000 then 3
    else 4
  }

  /** `strlen()`: the length of the UTF-8 encoding of `s` in bytes, not in characters. */
  function StrLen(s: string): (n: nat)
    ensures |s| <= n <= 4 * |s|
  {
    if s == [] then 0 else Utf8Width(s[0]) + StrLen(s[1..])
  }

  predicate IsAscii(s: string)
  {
    forall i :: 0 <= i < |s| ==> s[i] as int < 0x80
  }

  /** On ASCII text the byte length and the character count agree. */
  lemma {:induction false} StrLenAscii(s: string)
    requires IsAscii(s)
    ensures StrLen(s) == |s|
  {
    if s != [] {
      assert IsAscii(s[1..]) by {
        forall i | 0 <= i < |s[1..]| ensures s[1..][i] as int < 0x80 {
          assert s[1..][i] == s[i + 1];
        }
      }
      StrLenAscii(s[1..]);
    }
  }
}

=== FILE: post.dfy ===
/**
 The post model (app/Models/Post.php): a story whose slides live in the JSON
 `content` column, with accessors that search that slide list and the
 `active`/`inactive` query scopes. `strip_tags` and `Str::limit` with a numeric
 limit are parameters.
 */
module Posts {
  import opened Php
  import Seqs

  /**
   One element of `content['slides']`. The two toggles are read directly by the
   accessors, so an absent key is told apart from a stored null; for the other
   keys only `isset` or `??` is used, and absent and null read alike.
   */
  datatype SlideItem = SlideItem(
    slideTitle: Option<string>,
    textActive: Entry<bool>,
    imageActive: Entry<bool>,
    zoomEffect: Option<bool>,
    content: Option<string>,
    image: Option<string>)

  /** The decoded `content` column; `slides` is null when the key is missing. */
  datatype Content = Content(slides: Option<seq<SlideItem>>)

  /** A row of the `posts` table; timestamps are ordered integers. */
  datatype Post = Post(
    id: nat,
    categoryId: nat,
    title: Option<string>,
    slug: string,
    metaTitle: Option<string>,
    metaDescription: Option<string>,
    metaKeywords: Option<string>,
    isActive: bool,
    content: Content,
    createdAt: int,
    updatedAt: int)

  /** The attribute default: a new post's `content` is the JSON object `{}`. */
  const EmptyContent := Content(None)

  const UntitledStory := "Untitled Story"
  const NoContentExcerpt := "No content available."
  const ExcerptLimit := 150

  /** The `title` accessor: the stored title, with `??` supplying a default for null only. */
  function Title(p: Post): (t: string)
    ensures p.title.None? ==> t == UntitledStory
    ensures p.title.Some? ==> t == p.title.value
  {
    p.title.GetOr(UntitledStory)
  }

  /** The `slides` accessor: `content['slides'] ?? []`. */
  function Slides(p: Post): (slides: seq<SlideItem>)
    ensures p.content.slides.None? ==> slides == []
    ensures p.content.slides.Some? ==> slides == p.content.slides.value
  {
    p.content.slides.GetOr([])
  }

  /** The `slides_count` attribute. */
  function SlidesCount(p: Post): (n: nat)
    ensures n == 0 <==> p.content.slides.None? || p.content.slides == Some([])
    ensures p.content.slides.Some? ==> n == |p.content.slides.value|
  {
    |Slides(p)|
  }

  /** `isset($slide['image']) && $slide['image_active']` holds. */
  predicate ShowsImage(s: SlideItem)
  {
    s.image.Some? && Truthy(s.imageActive.OrNull())
  }

  /** `isset($slide['image'])` holds, so `$slide['image_active']` is read, and the key is absent. */
  predicate ImageToggleMissing(s: SlideItem)
  {
    s.image.Some? && s.imageActive.Absent?
  }

  /** The preview loop stops at this slide, returning its image or raising. */
  predicate StopsImageLoop(s: SlideItem)
  {
    ShowsImage(s) || ImageToggleMissing(s)
  }

  /** `isset($slide['content']) && $slide['text_active']` holds. */
  predicate ShowsText(s: SlideItem)
  {
    s.content.Some? && Truthy(s.textActive.OrNull())
  }

  /** `isset($slide['content'])` holds, so `$slide['text_active']` is read, and the key is absent. */
  predicate TextToggleMissing(s: SlideItem)
  {
    s.content.Some? && s.textActive.Absent?
  }

  /** The excerpt loop stops at this slide, returning its text or raising. */
  predicate StopsTextLoop(s: SlideItem)
  {
    ShowsText(s) || TextToggleMissing(s)
  }

  /**
   The `preview_image` attribute: the image of the first slide that shows one,
   or null. Reaching a slide with an image but no `image_active` key raises.
   */
  function PreviewImage(p: Post): (r: Outcome<Option<string>>)
    ensures r == Ok(None) <==> forall i :: 0 <= i < |Slides(p)| ==> !StopsImageLoop(Slides(p)[i])
    ensures r.Ok? && r.value.Some? ==>
      exists i :: 0 <= i < |Slides(p)| && ShowsImage(Slides(p)[i])
        && Slides(p)[i].image == r.value
        && forall j :: 0 <= j < i ==> !StopsImageLoop(Slides(p)[j])
    ensures r.UndefinedKey? ==>
      r.key == "image_active" &&
      exists i :: 0 <= i < |Slides(p)| && ImageToggleMissing(Slides(p)[i])
        && forall j :: 0 <= j < i ==> !StopsImageLoop(Slides(p)[j])
  {
    match Seqs.FirstIndex(Slides(p), StopsImageLoop)
    case Some(i) =>
      if ShowsImage(Slides(p)[i]) then Ok(Slides(p)[i].image) else UndefinedKey("image_active")
    case None => Ok(None)
  }

  /**
   The body of `getExcerptAttribute($limit)`: the first text slide's content, tags
   stripped and shortened by `Str::limit` with `$limit`, or a fixed message when
   no slide shows text. Reaching a slide with content but no `text_active` key
   raises.
   */
  function ExcerptWithLimit(p: Post, stripTags: string -> string, limit: Option<nat>, limitTo: (string, nat) -> string): (r: Outcome<string>)
    ensures (forall i :: 0 <= i < |Slides(p)| ==> !StopsTextLoop(Slides(p)[i])) ==> r == Ok(NoContentExcerpt)
    ensures (exists i :: 0 <= i < |Slides(p)| && StopsTextLoop(Slides(p)[i])) && r.Ok? ==>
      exists i :: 0 <= i < |Slides(p)| && ShowsText(Slides(p)[i])
        && r.value == StrLimit(stripTags(Slides(p)[i].content.value), limit, limitTo)
        && forall j :: 0 <= j < i ==> !StopsTextLoop(Slides(p)[j])
    ensures r.UndefinedKey? ==>
      r.key == "text_active" &&
      exists i :: 0 <= i < |Slides(p)| && TextToggleMissing(Slides(p)[i])
        && forall j :: 0 <= j < i ==> !StopsTextLoop(Slides(p)[j])
  {
    match Seqs.FirstIndex(Slides(p), StopsTextLoop)
    case Some(i) =>
      if ShowsText(Slides(p)[i]) then Ok(StrLimit(stripTags(Slides(p)[i].content.value), limit, limitTo))
      else UndefinedKey("text_active")
    case None => Ok(NoContentExcerpt)
  }

  /**
   Reading `$post->excerpt` as the code is written: Eloquent calls a
   `get...Attribute` accessor with the attribute's stored value, and `excerpt` is
   not a column, so `$limit` is null rather than the declared default 150. A text
   slide's excerpt is then "..." (or "" when nothing is left after stripping tags).
   */
  function Excerpt(p: Post, stripTags: string -> string, limitTo: (string, nat) -> string): (r: Outcome<string>)
    ensures r.Ok? ==> r.value == NoContentExcerpt || r.value == "" || r.value == "..."
    ensures r == Ok(NoContentExcerpt) <==> forall i :: 0 <= i < |Slides(p)| ==> !StopsTextLoop(Slides(p)[i])
    ensures forall i ::
      (0 <= i < |Slides(p)| && StopsTextLoop(Slides(p)[i])
        && forall j :: 0 <= j < i ==> !StopsTextLoop(Slides(p)[j])) ==>
        r == if TextToggleMissing(Slides(p)[i]) then UndefinedKey("text_active")
             else Ok(if stripTags(Slides(p)[i].content.value) == "" then "" else "...")
  {
    ExcerptWithLimit(p, stripTags, None, limitTo)
  }

  /** The excerpt with the limit of 150 that the accessor declares as its default. */
  function IntendedExcerpt(p: Post, stripTags: string -> string, limitTo: (string, nat) -> string): (r: Outcome<string>)
    ensures (forall i :: 0 <= i < |Slides(p)| ==> !StopsTextLoop(Slides(p)[i])) ==> r == Ok(NoContentExcerpt)
    ensures (exists i :: 0 <= i < |Slides(p)| && StopsTextLoop(Slides(p)[i])) && r.Ok? ==>
      exists i :: 0 <= i < |Slides(p)| && ShowsText(Slides(p)[i])
        && r.value == limitTo(stripTags(Slides(p)[i].content.value), ExcerptLimit)
        && forall j :: 0 <= j < i ==> !StopsTextLoop(Slides(p)[j])
    ensures r.UndefinedKey? <==> Excerpt(p, stripTags, limitTo).UndefinedKey?
  {
    ExcerptWithLimit(p, stripTags, Some(ExcerptLimit), limitTo)
  }

  /**
   A post whose only slide shows "<p>Hello</p>" reads its excerpt as "...", where
   the default limit of 150 would give "Hello".
   */
  lemma ExcerptAsWrittenHidesText(p: Post, stripTags: string -> string, limitTo: (string, nat) -> string)
    requires Slides(p) == [SlideItem(None, Present(Some(true)), Absent, None, Some("<p>Hello</p>"), None)]
    requires stripTags("<p>Hello</p>") == "Hello"
    requires limitTo("Hello", ExcerptLimit) == "Hello"
    ensures Excerpt(p, stripTags, limitTo) == Ok("...")
    ensures IntendedExcerpt(p, stripTags, limitTo) == Ok("Hello")
  {
    assert StopsTextLoop(Slides(p)[0]);
  }

  /** The `active` scope. */
  function Active(posts: seq<Post>): (r: seq<Post>)
    ensures forall i :: 0 <= i < |r| ==> r[i].isActive && r[i] in posts
    ensures forall i :: 0 <= i < |posts| && posts[i].isActive ==> posts[i] in r
  {
    Seqs.Filter(posts, (p: Post) => p.isActive)
  }

  /** The `inactive` scope. */
  function Inactive(posts: seq<Post>): (r: seq<Post>)
    ensures forall i :: 0 <= i < |r| ==> !r[i].isActive && r[i] in posts
    ensures forall i :: 0 <= i < |posts| && !posts[i].isActive ==> posts[i] in r
  {
    Seqs.Filter(posts, (p: Post) => !p.isActive)
  }

  /** The default is replaced only for a null title; an empty stored title stays empty. */
  lemma TitleDefault(p: Post)
    ensures Title(p) == UntitledStory <==> p.title.None? || p.title == Some(UntitledStory)
    ensures p.title.Some? ==> Title(p) == p.title.value
  {
  }

  /** A post created with the default `content` has no slides, so it counts none and shows no preview or excerpt text. */
  lemma FreshPostHasNoSlides(p: Post, stripTags: string -> string, limitTo: (string, nat) -> string)
    requires p.content == EmptyContent
    ensures Slides(p) == [] && SlidesCount(p) == 0
    ensures PreviewImage(p) == Ok(None)
    ensures Excerpt(p, stripTags, limitTo) == Ok(NoContentExcerpt)
  {
  }

  /** `slides_count` is zero exactly when the key is missing or holds an empty list. */
  lemma SlidesCountZero(p: Post)
    ensures SlidesCount(p) == 0 <==> p.content.slides.None? || p.content.slides == Some([])
  {
  }

  /** Slides after the one where the preview loop stops never change its outcome. */
  lemma PreviewImageIgnoresLaterSlides(p: Post, i: nat, later: seq<SlideItem>)
    requires i < |Slides(p)| && StopsImageLoop(Slides(p)[i])
    ensures PreviewImage(p.(content := Content(Some(Slides(p)[..i + 1] + later)))) == PreviewImage(p)
  {
    Seqs.FirstIndexIgnoresSuffix(Slides(p), StopsImageLoop, i, later);
  }

  /** Slides after the one where the excerpt loop stops never change its outcome. */
  lemma ExcerptIgnoresLaterSlides(p: Post, i: nat, later: seq<SlideItem>, stripTags: string -> string, limit: Option<nat>, limitTo: (string, nat) -> string)
    requires i < |Slides(p)| && StopsTextLoop(Slides(p)[i])
    ensures ExcerptWithLimit(p.(content := Content(Some(Slides(p)[..i + 1] + later))), stripTags, limit, limitTo)
         == ExcerptWithLimit(p, stripTags, limit, limitTo)
  {
    Seqs.FirstIndexIgnoresSuffix(Slides(p), StopsTextLoop, i, later);
  }

  /** A slide list in which every toggle key is present, as the admin form stores it, never raises. */
  lemma AccessorsDefinedWhenTogglesPresent(p: Post, stripTags: string -> string, limit: Option<nat>, limitTo: (string, nat) -> string)
    requires forall i :: 0 <= i < |Slides(p)| ==> Slides(p)[i].imageActive.Present? && Slides(p)[i].textActive.Present?
    ensures PreviewImage(p).Ok?
    ensures ExcerptWithLimit(p, stripTags, limit, limitTo).Ok?
  {
  }

  /**
   A slide with an image but no `image_active` key raises even when a later slide
   would qualify: the loop never gets past it.
   */
  lemma MissingImageToggleRaises(p: Post)
    requires Slides(p) == [
      SlideItem(None, Absent, Absent, None, None, Some("a.jpg")),
      SlideItem(None, Absent, Present(Some(true)), None, None, Some("b.jpg"))]
    ensures PreviewImage(p) == UndefinedKey("image_active")
  {
    assert StopsImageLoop(Slides(p)[0]);
  }

  /** The two scopes split any list of posts: each post is in exactly one, and no copy is lost or duplicated. */
  lemma ActiveInactivePartition(posts: seq<Post>)
    ensures forall i :: 0 <= i < |posts| ==> (posts[i] in Active(posts) <==> posts[i].isActive)
    ensures forall i :: 0 <= i < |posts| ==> (posts[i] in Inactive(posts) <==> !posts[i].isActive)
    ensures multiset(Active(posts)) + multiset(Inactive(posts)) == multiset(posts)
  {
    Seqs.FilterPartition(posts, (p: Post) => p.isActive, (p: Post) => !p.isActive);
  }
}

=== FILE: post_form.dfy ===
/**
 The statable rules of the admin resource for posts
 (app/Filament/Resources/PostResource.php): form validation, the defaults of a
 new form, conditional visibility of slide fields, the repeater's item label,
 the status filter, the bulk publish/draft actions and the title tooltip.
 */
module PostForm {
  import opened Php
  import Posts
  import Seqs

  /** The submitted form: the title, the publish toggle and the `content.slides` repeater. */
  datatype FormData = FormData(title: Option<string>, isActive: bool, slides: seq<Posts.SlideItem>)

  datatype FormError = TitleRequired | TitleTooLong | TooFewSlides | SlideTitleTooLong(index: nat)

  const MaxLength := 255
  const TooltipThreshold := 40

  /** A repeater item as added: text and image enabled, no zoom, nothing filled in. */
  const DefaultSlide := Posts.SlideItem(None, Present(Some(true)), Present(Some(true)), Some(false), None, None)

  /** A new form: publish on, no title, one default slide (`defaultItems(1)`). */
  function NewForm(): (f: FormData)
    ensures |f.slides| == 1 && f.isActive && f.title.None?
  {
    FormData(None, true, [DefaultSlide])
  }

  /** `required` fails on null and on strings `trim()` reduces to ''. */
  predicate Missing(s: Option<string>)
  {
    s.None? || IsBlank(s.value)
  }

  /** `maxLength(255)` on a slide title; the rule is skipped for a blank or missing value. */
  predicate SlideTitleTooLongAt(item: Posts.SlideItem)
  {
    !Missing(item.slideTitle) && |item.slideTitle.value| > MaxLength
  }

  /** What a submission must satisfy to be accepted. */
  predicate Acceptable(f: FormData)
  {
    && !Missing(f.title)
    && |f.title.value| <= MaxLength
    && |f.slides| >= 1
    && forall i :: 0 <= i < |f.slides| ==> !SlideTitleTooLongAt(f.slides[i])
  }

  /** The title's rules in order; a failed `required` stops the remaining rules for the field. */
  function TitleErrors(title: Option<string>): (errs: seq<FormError>)
    ensures TitleRequired in errs <==> Missing(title)
    ensures TitleTooLong in errs <==> !Missing(title) && |title.value| > MaxLength
    ensures TooFewSlides !in errs && forall i :: SlideTitleTooLong(i) !in errs
  {
    if Missing(title) then [TitleRequired]
    else if |title.value| > MaxLength then [TitleTooLong]
    else []
  }

  /** `maxLength(255)` on each slide title, in repeater order. */
  function SlideTitleErrors(slides: seq<Posts.SlideItem>): (errs: seq<FormError>)
    ensures forall k :: 0 <= k < |errs| ==>
      errs[k].SlideTitleTooLong? && errs[k].index < |slides| && SlideTitleTooLongAt(slides[errs[k].index])
    ensures forall i :: 0 <= i < |slides| && SlideTitleTooLongAt(slides[i]) ==> SlideTitleTooLong(i) in errs
  {
    if slides == [] then []
    else
      var n := |slides| - 1;
      SlideTitleErrors(slides[..n]) + (if SlideTitleTooLongAt(slides[n]) then [SlideTitleTooLong(n)] else [])
  }

  lemma {:induction false} NoLongTitlesNoErrors(slides: seq<Posts.SlideItem>)
    requires forall i :: 0 <= i < |slides| ==> !SlideTitleTooLongAt(slides[i])
    ensures SlideTitleErrors(slides) == []
  {
    if slides != [] {
      NoLongTitlesNoErrors(slides[..|slides| - 1]);
    }
  }

  /** Validation of a submission: every rule that fails contributes its error. */
  function Validate(f: FormData): (errs: seq<FormError>)
    ensures TitleRequired in errs <==> Missing(f.title)
    ensures TitleTooLong in errs <==> !Missing(f.title) && |f.title.value| > MaxLength
    ensures TooFewSlides in errs <==> |f.slides| == 0
    ensures forall i: nat :: SlideTitleTooLong(i) in errs <==> i < |f.slides| && SlideTitleTooLongAt(f.slides[i])
    ensures errs == [] <==> Acceptable(f)
  {
    var errs := TitleErrors(f.title) + (if |f.slides| < 1 then [TooFewSlides] else []) + SlideTitleErrors(f.slides);
    var slideErrs := SlideTitleErrors(f.slides);
    assert errs == [] ==> Acceptable(f) by {
      if errs == [] {
        forall i | 0 <= i < |f.slides| ensures !SlideTitleTooLongAt(f.slides[i]) {
          assert SlideTitleTooLong(i) !in slideErrs;
        }
      }
    }
    assert Acceptable(f) ==> slideErrs == [] by {
      if Acceptable(f) {
        NoLongTitlesNoErrors(f.slides);
      }
    }
    errs
  }

  /** An accepted submission has a non-empty title of at most 255 characters and at least one slide. */
  lemma AcceptedTitleAndSlides(f: FormData)
    requires Validate(f) == []
    ensures f.title.Some? && f.title.value != "" && |f.title.value| <= MaxLength
    ensures |f.slides| >= 1
  {
  }

  /** A new form starts with one slide and is rejected only for its missing title. */
  lemma NewFormNeedsOnlyTitle()
    ensures |NewForm().slides| == 1
    ensures Validate(NewForm()) == [TitleRequired]
  {
  }

  /** The rich-text editor is shown when text is enabled; `$get` reads an absent toggle as null. */
  predicate ContentEditorVisible(item: Posts.SlideItem)
  {
    Truthy(item.textActive.OrNull())
  }

  /** The zoom toggle is shown when the image is enabled. */
  predicate ZoomToggleVisible(item: Posts.SlideItem)
  {
    Truthy(item.imageActive.OrNull())
  }

  /** The image upload is shown when the image is enabled. */
  predicate ImageUploadVisible(item: Posts.SlideItem)
  {
    Truthy(item.imageActive.OrNull())
  }

  /** Zoom toggle and upload appear together; the text toggle alone governs the editor and the image toggle alone the other two. */
  lemma VisibilityRules(item: Posts.SlideItem, b: Entry<bool>)
    ensures ZoomToggleVisible(item) <==> ImageUploadVisible(item)
    ensures ContentEditorVisible(item.(imageActive := b)) == ContentEditorVisible(item)
    ensures ZoomToggleVisible(item.(textActive := b)) == ZoomToggleVisible(item)
    ensures ImageUploadVisible(item.(textActive := b)) == ImageUploadVisible(item)
    ensures ContentEditorVisible(item) <==> item.textActive == Present(Some(true))
    ensures ImageUploadVisible(item) <==> item.imageActive == Present(Some(true))
  {
  }

  /** A freshly added slide shows the editor, the zoom toggle and the upload. */
  lemma DefaultSlideShowsEverything()
    ensures ContentEditorVisible(DefaultSlide) && ZoomToggleVisible(DefaultSlide) && ImageUploadVisible(DefaultSlide)
  {
  }

  /** `array_search($state, $list) + 1`: the first equal item's 1-based position, or 1 (`false + 1`) when absent. */
  function SearchPosition(state: Posts.SlideItem, submitted: seq<Posts.SlideItem>): (n: nat)
    ensures n >= 1
    ensures state !in submitted ==> n == 1
    ensures state in submitted ==>
      n - 1 < |submitted| && submitted[n - 1] == state && forall j :: 0 <= j < n - 1 ==> submitted[j] != state
  {
    match Seqs.FirstIndex(submitted, (x: Posts.SlideItem) => x == state)
    case Some(i) => i + 1
    case None => 1
  }

  /** The repeater's `itemLabel`: the slide title when not `empty()`, otherwise "Slide n". */
  function ItemLabel(state: Posts.SlideItem, submitted: seq<Posts.SlideItem>): (r: string)
    ensures !EmptyString(state.slideTitle) ==> r == state.slideTitle.value
    ensures EmptyString(state.slideTitle) && state !in submitted ==> r == "Slide 1"
    ensures EmptyString(state.slideTitle) && state in submitted ==>
      exists i :: 0 <= i < |submitted| && submitted[i] == state
        && (forall j :: 0 <= j < i ==> submitted[j] != state)
        && r == "Slide " + NatToString(i + 1)
  {
    if !EmptyString(state.slideTitle) then state.slideTitle.value
    else "Slide " + NatToString(if |submitted| > 0 then SearchPosition(state, submitted) else 1)
  }

  /**
   An untitled slide is labelled with its own position exactly when no earlier
   slide equals it; a clone is labelled with the position of its original.
   */
  lemma {:induction false} LabelIsPositionIffFirstCopy(submitted: seq<Posts.SlideItem>, i: nat)
    requires i < |submitted| && EmptyString(submitted[i].slideTitle)
    ensures ItemLabel(submitted[i], submitted) == "Slide " + NatToString(i + 1)
      <==> forall j :: 0 <= j < i ==> submitted[j] != submitted[i]
  {
    UntitledLabel(submitted[i], submitted);
    FirstCopyPosition(submitted, i);
    SlideLabelInjective(SearchPosition(submitted[i], submitted), i + 1);
  }

  lemma UntitledLabel(state: Posts.SlideItem, submitted: seq<Posts.SlideItem>)
    requires EmptyString(state.slideTitle) && state in submitted
    ensures ItemLabel(state, submitted) == "Slide " + NatToString(SearchPosition(state, submitted))
  {
  }

  /** The search finds position i + 1 exactly when no earlier item equals the item at i. */
  lemma FirstCopyPosition(submitted: seq<Posts.SlideItem>, i: nat)
    requires i < |submitted|
    ensures SearchPosition(submitted[i], submitted) == i + 1 <==> forall j :: 0 <= j < i ==> submitted[j] != submitted[i]
  {
    assert submitted[i] in submitted;
  }

  /** Different numbers give different "Slide n" labels. */
  lemma SlideLabelInjective(a: nat, b: nat)
    ensures "Slide " + NatToString(a) == "Slide " + NatToString(b) <==> a == b
  {
    if "Slide " + NatToString(a) == "Slide " + NatToString(b) {
      assert ("Slide " + NatToString(a))[6..] == NatToString(a);
      assert ("Slide " + NatToString(b))[6..] == NatToString(b);
      NatToStringInjective(a, b);
    }
  }

  /** Identical untitled slides share one label. */
  lemma ClonesShareLabel(submitted: seq<Posts.SlideItem>, i: nat, j: nat)
    requires i < j < |submitted| && submitted[i] == submitted[j]
    requires EmptyString(submitted[i].slideTitle)
    ensures ItemLabel(submitted[j], submitted) == ItemLabel(submitted[i], submitted)
    ensures ItemLabel(submitted[j], submitted) != "Slide " + NatToString(j + 1)
  {
    LabelIsPositionIffFirstCopy(submitted, j);
  }

  /** The table's status filter: all posts, published ones, or drafts. */
  function StatusFilter(posts: seq<Posts.Post>, choice: Option<bool>): (r: seq<Posts.Post>)
    ensures choice.None? ==> r == posts
    ensures choice.Some? ==> forall i :: 0 <= i < |r| ==> r[i].isActive == choice.value && r[i] in posts
    ensures choice.Some? ==> forall i :: 0 <= i < |posts| && posts[i].isActive == choice.value ==> posts[i] in r
  {
    match choice
    case None => posts
    case Some(true) => Posts.Active(posts)
    case Some(false) => Posts.Inactive(posts)
  }

  /**
   `$record->update(['is_active' => $value])`: a record whose status already
   matches is not saved, so only a real change refreshes `updated_at`.
   */
  function SetStatus(p: Posts.Post, value: bool, now: int): (r: Posts.Post)
    ensures r.isActive == value
    ensures r.(isActive := p.isActive, updatedAt := p.updatedAt) == p
    ensures p.isActive == value ==> r == p
    ensures p.isActive != value ==> r.updatedAt == now
  {
    if p.isActive == value then p else p.(isActive := value, updatedAt := now)
  }

  /** A bulk action that sets the status of every selected record. */
  function BulkSetStatus(posts: seq<Posts.Post>, selected: set<nat>, value: bool, now: int): (r: seq<Posts.Post>)
    ensures |r| == |posts|
    ensures forall i :: 0 <= i < |posts| && posts[i].id in selected ==>
      r[i].isActive == value && r[i].(isActive := posts[i].isActive, updatedAt := posts[i].updatedAt) == posts[i]
    ensures forall i :: 0 <= i < |posts| && posts[i].id !in selected ==> r[i] == posts[i]
  {
    seq(|posts|, i requires 0 <= i < |posts| =>
      if posts[i].id in selected then SetStatus(posts[i], value, now) else posts[i])
  }

  /** "Publish Selected". */
  function Activate(posts: seq<Posts.Post>, selected: set<nat>, now: int): (r: seq<Posts.Post>)
    ensures |r| == |posts|
    ensures forall i :: 0 <= i < |posts| && posts[i].id in selected ==> r[i] in Posts.Active(r)
    ensures forall i :: 0 <= i < |posts| && posts[i].id !in selected ==> r[i] == posts[i]
  {
    BulkSetStatus(posts, selected, true, now)
  }

  /** "Move to Draft". */
  function Deactivate(posts: seq<Posts.Post>, selected: set<nat>, now: int): (r: seq<Posts.Post>)
    ensures |r| == |posts|
    ensures forall i :: 0 <= i < |posts| && posts[i].id in selected ==> r[i] in Posts.Inactive(r)
    ensures forall i :: 0 <= i < |posts| && posts[i].id !in selected ==> r[i] == posts[i]
  {
    BulkSetStatus(posts, selected, false, now)
  }

  /** Running a bulk status action again, at any later time, changes nothing. */
  lemma BulkSetStatusIdempotent(posts: seq<Posts.Post>, selected: set<nat>, value: bool, now: int, later: int)
    ensures BulkSetStatus(BulkSetStatus(posts, selected, value, now), selected, value, later)
      == BulkSetStatus(posts, selected, value, now)
  {
    var once := BulkSetStatus(posts, selected, value, now);
    var twice := BulkSetStatus(once, selected, value, later);
    forall i | 0 <= i < |posts| ensures twice[i] == once[i] {
      assert once[i].id == posts[i].id;
    }
  }

  lemma ActivateIdempotent(posts: seq<Posts.Post>, selected: set<nat>, now: int, later: int)
    ensures Activate(Activate(posts, selected, now), selected, later) == Activate(posts, selected, now)
  {
    BulkSetStatusIdempotent(posts, selected, true, now, later);
  }

  lemma DeactivateIdempotent(posts: seq<Posts.Post>, selected: set<nat>, now: int, later: int)
    ensures Deactivate(Deactivate(posts, selected, now), selected, later) == Deactivate(posts, selected, now)
  {
    BulkSetStatusIdempotent(posts, selected, false, now, later);
  }

  /** The title column's tooltip: the full title when `strlen` (bytes) exceeds 40. */
  function TitleTooltip(state: string): (r: Option<string>)
    ensures r.Some? <==> StrLen(state) > TooltipThreshold
    ensures r.Some? ==> r.value == state
  {
    if StrLen(state) > TooltipThreshold then Some(state) else None
  }

  /** More than 40 characters always earn a tooltip; for ASCII titles the rule is exactly that. */
  lemma TooltipByCharacters(state: string)
    ensures |state| > TooltipThreshold ==> TitleTooltip(state).Some?
    ensures IsAscii(state) ==> (TitleTooltip(state).Some? <==> |state| > TooltipThreshold)
  {
    if IsAscii(state) {
      StrLenAscii(state);
    }
  }

  /** The threshold counts bytes: 21 copies of 'é' (two bytes each) earn a tooltip though only 21 characters long. */
  lemma TooltipCountsBytes(s: string)
    requires |s| == 21 && forall i :: 0 <= i < |s| ==> s[i] == 'é'
    ensures |s| <= TooltipThreshold && TitleTooltip(s).Some?
  {
    TailBytes(s, 21);
    assert s[0..] == s;
  }

  lemma {:induction false} TailBytes(s: string, k: nat)
    requires |s| == 21 && k <= 21
    requires forall i :: 0 <= i < |s| ==> s[i] == 'é'
    ensures StrLen(s[21 - k..]) == 2 * k
  {
    if k > 0 {
      TailBytes(s, k - 1);
      assert s[21 - k..][1..] == s[21 - (k - 1)..];
    }
  }
}

=== FILE: seqs.dfy ===
/**
 Sequence operations shared by the query scopes and the accessors: a `where`
 clause over a result list, and the first-match search a `foreach` with an
 early `return` performs.
 */
module Seqs {
  import opened Php

  /** The elements of `s` that satisfy `p`, in their original order. */
  function Filter<T>(s: seq<T>, p: T -> bool): (r: seq<T>)
    ensures |r| <= |s|
    ensures forall i :: 0 <= i < |r| ==> p(r[i]) && r[i] in s
    ensures forall i :: 0 <= i < |s| && p(s[i]) ==> s[i] in r
  {
    if s == [] then []
    else if p(s[0]) then [s[0]] + Filter(s[1..], p)
    else Filter(s[1..], p)
  }

  /** Filtering keeps every copy of a qualifying element and drops every copy of the others. */
  lemma {:induction false} FilterCount<T>(s: seq<T>, p: T -> bool, x: T)
    ensures multiset(Filter(s, p))[x] == if p(x) then multiset(s)[x] else 0
  {
    if s != [] {
      FilterCount(s[1..], p, x);
      assert s == [s[0]] + s[1..];
    }
  }

  /** Two complementary filters split a list: nothing is lost and nothing is duplicated. */
  lemma FilterPartition<T>(s: seq<T>, p: T -> bool, q: T -> bool)
    requires forall x :: q(x) == !p(x)
    ensures multiset(Filter(s, p)) + multiset(Filter(s, q)) == multiset(s)
  {
    forall x
      ensures (multiset(Filter(s, p)) + multiset(Filter(s, q)))[x] == multiset(s)[x]
    {
      FilterCount(s, p, x);
      FilterCount(s, q, x);
    }
  }

  /** The position of the first element satisfying `p`, as a `foreach` that returns on the first match finds it. */
  function FirstIndex<T>(s: seq<T>, p: T -> bool): (r: Option<nat>)
    ensures r.Some? ==> r.value < |s| && p(s[r.value])
    ensures r.Some? ==> forall j :: 0 <= j < r.value ==> !p(s[j])
    ensures r.None? <==> forall j :: 0 <= j < |s| ==> !p(s[j])
  {
    if s == [] then None
    else if p(s[0]) then Some(0)
    else match FirstIndex(s[1..], p)
      case None => None
      case Some(i) => Some(i + 1)
  }

  /** Elements after the first match do not influence the search. */
  lemma FirstIndexIgnoresSuffix<T>(s: seq<T>, p: T -> bool, i: nat, t: seq<T>)
    requires i < |s| && p(s[i])
    ensures FirstIndex(s[..i + 1] + t, p) == FirstIndex(s, p)
  {
    var u := s[..i + 1] + t;
    var a := FirstIndex(u, p);
    var b := FirstIndex(s, p);
    assert u[i] == s[i];
    assert forall j :: 0 <= j <= i ==> u[j] == s[j];
    assert b.Some? && b.value <= i;
    assert a.Some? && a.value <= i;
  }
}

=== FILE: slide.dfy ===
/**
 The relational slide model (app/Models/Slide.php): accessors over the slide's
 first media attachment, the call-to-action helpers, and the query scopes.
 Media URLs and URL validation belong to libraries and are parameters.
 */
module Slides {
  import opened Php
  import Seqs

  datatype TextPosition = Center | Left | Right | Bottom

  /** The image conversions a URL can be requested for; `Original` is the uploaded file. */
  datatype Conversion = Original | Story | Thumb

  /** A media-library attachment, known only by the file it refers to. */
  datatype Media = Media(file: string)

  /** A row of the `slides` table; `image` is the first media of the `slide_image` collection, if any. */
  datatype Slide = Slide(
    id: nat,
    postId: nat,
    title: Option<string>,
    textActive: bool,
    zoomEffect: bool,
    textPosition: TextPosition,
    content: Option<string>,
    ctaLink: Option<string>,
    ctaButtonShow: bool,
    image: Option<Media>)

  const CtaButtonLabel := "Call to Action"

  /** The `has_slide_image` attribute. */
  predicate HasSlideImage(s: Slide)
  {
    s.image.Some?
  }

  /** The URL of the slide image in conversion `conv`, or null without an image. */
  function ImageUrl(s: Slide, conv: Conversion, url: (Media, Conversion) -> string): (r: Option<string>)
    ensures r.None? <==> !HasSlideImage(s)
    ensures r.Some? ==> r.value == url(s.image.value, conv)
  {
    match s.image
    case Some(m) => Some(url(m, conv))
    case None => None
  }

  /** The `slide_image` attribute: the `story` conversion. */
  function SlideImage(s: Slide, url: (Media, Conversion) -> string): (r: Option<string>)
    ensures r.None? <==> !HasSlideImage(s)
    ensures r.Some? ==> r.value == url(s.image.value, Story)
  {
    ImageUrl(s, Story, url)
  }

  /** The `slide_image_thumb` attribute: the `thumb` conversion. */
  function SlideImageThumb(s: Slide, url: (Media, Conversion) -> string): (r: Option<string>)
    ensures r.None? <==> !HasSlideImage(s)
    ensures r.Some? ==> r.value == url(s.image.value, Thumb)
  {
    ImageUrl(s, Thumb, url)
  }

  /** The `slide_image_original` attribute: the uploaded file. */
  function SlideImageOriginal(s: Slide, url: (Media, Conversion) -> string): (r: Option<string>)
    ensures r.None? <==> !HasSlideImage(s)
    ensures r.Some? ==> r.value == url(s.image.value, Original)
  {
    ImageUrl(s, Original, url)
  }

  /** The `has_cta_button` attribute: shown, with a link that is not `empty()`. */
  function HasCtaButton(s: Slide): (b: bool)
    ensures b <==> s.ctaButtonShow && s.ctaLink.Some? && s.ctaLink.value != "" && s.ctaLink.value != "0"
  {
    s.ctaButtonShow && !EmptyString(s.ctaLink)
  }

  /** The `is_valid_cta_link` attribute; `filter_var` reads a null link as the empty string. */
  function IsValidCtaLink(s: Slide, isUrl: string -> bool): (b: bool)
    ensures s.ctaLink.None? ==> (b <==> isUrl(""))
    ensures s.ctaLink.Some? ==> (b <==> isUrl(s.ctaLink.value))
  {
    isUrl(s.ctaLink.GetOr(""))
  }

  /** The `cta_button_text` attribute. */
  function CtaButtonText(s: Slide): (text: string)
    ensures text == "Call to Action"
  {
    CtaButtonLabel
  }

  /** Row condition of the `withCta` scope: `cta_button_show = true AND cta_link IS NOT NULL`. */
  predicate InWithCta(s: Slide)
  {
    s.ctaButtonShow && s.ctaLink.Some?
  }

  /** Row condition of the `withoutCta` scope: `cta_button_show = false OR cta_link IS NULL`. */
  predicate InWithoutCta(s: Slide)
  {
    !s.ctaButtonShow || s.ctaLink.None?
  }

  function WithCta(slides: seq<Slide>): (r: seq<Slide>)
    ensures forall i :: 0 <= i < |r| ==> r[i].ctaButtonShow && r[i].ctaLink.Some? && r[i] in slides
    ensures forall i :: 0 <= i < |slides| && InWithCta(slides[i]) ==> slides[i] in r
  {
    Seqs.Filter(slides, InWithCta)
  }

  function WithoutCta(slides: seq<Slide>): (r: seq<Slide>)
    ensures forall i :: 0 <= i < |r| ==> (!r[i].ctaButtonShow || r[i].ctaLink.None?) && r[i] in slides
    ensures forall i :: 0 <= i < |slides| && InWithoutCta(slides[i]) ==> slides[i] in r
  {
    Seqs.Filter(slides, InWithoutCta)
  }

  /** The `withZoomEffect` scope. */
  function WithZoomEffect(slides: seq<Slide>): (r: seq<Slide>)
    ensures forall i :: 0 <= i < |r| ==> r[i].zoomEffect && r[i] in slides
    ensures forall i :: 0 <= i < |slides| && slides[i].zoomEffect ==> slides[i] in r
  {
    Seqs.Filter(slides, (s: Slide) => s.zoomEffect)
  }

  /** The `active` scope: slides whose text is enabled. */
  function ActiveSlides(slides: seq<Slide>): (r: seq<Slide>)
    ensures forall i :: 0 <= i < |r| ==> r[i].textActive && r[i] in slides
    ensures forall i :: 0 <= i < |slides| && slides[i].textActive ==> slides[i] in r
  {
    Seqs.Filter(slides, (s: Slide) => s.textActive)
  }

  /** The three image accessors are null together, exactly when the slide has no image. */
  lemma ImageAccessorsAgree(s: Slide, url: (Media, Conversion) -> string)
    ensures SlideImage(s, url).None? <==> !HasSlideImage(s)
    ensures SlideImageThumb(s, url).None? <==> !HasSlideImage(s)
    ensures SlideImageOriginal(s, url).None? <==> !HasSlideImage(s)
  {
  }

  /** A null link and an empty link are judged alike by the URL check. */
  lemma NullLinkValidatedAsEmpty(s: Slide, isUrl: string -> bool)
    ensures IsValidCtaLink(s.(ctaLink := None), isUrl) == IsValidCtaLink(s.(ctaLink := Some("")), isUrl)
  {
  }

  /** The button label does not depend on the slide. */
  lemma CtaButtonTextConstant(s: Slide, t: Slide)
    ensures CtaButtonText(s) == CtaButtonText(t) == CtaButtonLabel
  {
  }

  /** Every slide satisfies exactly one of the two CTA scope conditions. */
  lemma CtaScopesComplementary(s: Slide)
    ensures InWithCta(s) <==> !InWithoutCta(s)
  {
  }

  /** The two CTA scopes split any list of slides, losing and duplicating nothing. */
  lemma CtaScopesPartition(slides: seq<Slide>)
    ensures multiset(WithCta(slides)) + multiset(WithoutCta(slides)) == multiset(slides)
  {
    Seqs.FilterPartition(slides, InWithCta, InWithoutCta);
  }

  /** A slide with a button is in the `withCta` scope. */
  lemma HasCtaButtonInWithCta(s: Slide)
    requires HasCtaButton(s)
    ensures InWithCta(s)
  {
  }

  /** Having a button is `withCta` membership plus a link other than "" and "0". */
  lemma HasCtaButtonExactly(s: Slide)
    ensures HasCtaButton(s) <==> InWithCta(s) && s.ctaLink.value != "" && s.ctaLink.value != "0"
  {
  }

  /** The converse fails: a shown button whose link is "" or "0" passes `withCta` yet has no button. */
  lemma WithCtaWithoutButton(s: Slide)
    requires s.ctaButtonShow
    requires s.ctaLink == Some("") || s.ctaLink == Some("0")
    ensures InWithCta(s) && !HasCtaButton(s)
  {
  }
}

=== FILE: story_resource.dfy ===
/**
 The JSON projection of a post for the public API
 (app/Http/Resources/WebStoriesResource.php).
 */
module StoryResource {
  import opened Php
  import Posts
  import Categories
  import Listing

  /**
   Values the projection reads through accessors or relations that the post
   model does not define itself; the caller supplies them.
   */
  datatype Related = Related(
    contentWithImages: Option<string>,
    featuredImage: Option<string>,
    hasZoomEffects: Option<bool>,
    category: Option<Categories.Category>)

  datatype CategoryBlock = CategoryBlock(id: Option<nat>, name: Option<string>, slug: Option<string>)

  datatype SeoBlock = SeoBlock(metaTitle: Option<string>, metaDescription: Option<string>, metaKeywords: Option<string>)

  datatype StoryJson = StoryJson(
    id: nat,
    title: string,
    slug: string,
    content: Option<string>,
    featuredImage: Option<string>,
    slidesCount: nat,
    hasZoomEffects: Option<bool>,
    isActive: bool,
    category: CategoryBlock,
    seo: SeoBlock,
    createdAt: string,
    updatedAt: string)

  /** `$this->category?->id` and friends: null throughout when there is no category. */
  function CategoryFields(c: Option<Categories.Category>): (r: CategoryBlock)
    ensures c.None? <==> r == CategoryBlock(None, None, None)
    ensures c.Some? ==> r.id == Some(c.value.id) && r.name == Some(c.value.name) && r.slug == Some(c.value.slug)
  {
    match c
    case None => CategoryBlock(None, None, None)
    case Some(cat) => CategoryBlock(Some(cat.id), Some(cat.name), Some(cat.slug))
  }

  /** `toArray`; `dateTime` stands for `toDateTimeString()`. */
  function ToArray(p: Posts.Post, rel: Related, dateTime: int -> string): (r: StoryJson)
    ensures r.id == p.id && r.slug == p.slug
    ensures r.title == Posts.Title(p)
    ensures r.slidesCount == |Posts.Slides(p)|
    ensures r.isActive == p.isActive
    ensures r.seo == SeoBlock(p.metaTitle, p.metaDescription, p.metaKeywords)
    ensures rel.category.None? <==> r.category == CategoryBlock(None, None, None)
    ensures r.category == CategoryFields(rel.category)
    ensures r.content == rel.contentWithImages && r.featuredImage == rel.featuredImage
    ensures r.hasZoomEffects == rel.hasZoomEffects
    ensures r.createdAt == dateTime(p.createdAt) && r.updatedAt == dateTime(p.updatedAt)
  {
    StoryJson(
      p.id,
      Posts.Title(p),
      p.slug,
      rel.contentWithImages,
      rel.featuredImage,
      Posts.SlidesCount(p),
      rel.hasZoomEffects,
      p.isActive,
      CategoryFields(rel.category),
      SeoBlock(p.metaTitle, p.metaDescription, p.metaKeywords),
      dateTime(p.createdAt),
      dateTime(p.updatedAt))
  }

  /** `WebStoriesResource::collection`: one projection per post, in order. */
  function Collection(posts: seq<Posts.Post>, relOf: Posts.Post -> Related, dateTime: int -> string): (r: seq<StoryJson>)
    ensures |r| == |posts|
    ensures forall i :: 0 <= i < |posts| ==> r[i] == ToArray(posts[i], relOf(posts[i]), dateTime)
  {
    seq(|posts|, i requires 0 <= i < |posts| => ToArray(posts[i], relOf(posts[i]), dateTime))
  }

  /**
   The `meta` block of a paginated resource collection, with `links.prev` and
   `links.next` reduced to whether they are non-null (the URLs themselves are
   not modelled).
   */
  datatype Meta = Meta(
    currentPage: nat,
    from: Option<nat>,
    lastPage: nat,
    perPage: nat,
    to: Option<nat>,
    total: nat,
    hasPrev: bool,
    hasNext: bool)

  datatype Response = Response(data: seq<StoryJson>, meta: Meta)

  /**
   The paginator's counts as the collection response reports them: `from` and
   `to` are the 1-based positions of the first and last item on the page (null
   for an empty page), `prev` exists past page 1 and `next` before the last page.
   */
  function PageMeta(pg: Listing.Page): (m: Meta)
    requires pg.currentPage >= 1
    ensures m.currentPage == pg.currentPage && m.lastPage == pg.lastPage
    ensures m.perPage == pg.perPage && m.total == pg.total
    ensures m.from.None? <==> pg.data == []
    ensures m.to.None? <==> pg.data == []
    ensures m.from.Some? ==>
      m.from.value == (pg.currentPage - 1) * pg.perPage + 1
      && m.to.Some? && m.to.value - m.from.value + 1 == |pg.data|
    ensures m.hasPrev <==> pg.currentPage > 1
    ensures m.hasNext <==> pg.currentPage < pg.lastPage
  {
    var offset := (pg.currentPage - 1) * pg.perPage;
    Meta(
      pg.currentPage,
      if pg.data == [] then None else Some(offset + 1),
      pg.lastPage,
      pg.perPage,
      if pg.data == [] then None else Some(offset + |pg.data|),
      pg.total,
      pg.currentPage > 1,
      pg.currentPage < pg.lastPage)
  }

  /** The API response for a requested page: the projected posts and the pagination meta. */
  function Respond(posts: seq<Posts.Post>, requested: int, relOf: Posts.Post -> Related, dateTime: int -> string): (r: Response)
    ensures |r.data| <= Listing.PerPage
    ensures forall i :: 0 <= i < |r.data| ==> r.data[i].isActive
    ensures r.meta.total == |Posts.Active(posts)| && r.meta.perPage == Listing.PerPage
    ensures r.meta.currentPage == Listing.ResolvePage(requested)
    ensures r.meta.lastPage == Listing.LastPage(r.meta.total)
  {
    PageResponse(Listing.GetPosts(posts, requested), relOf, dateTime)
  }

  /** `WebStoriesResource::collection` over a paginator: its items projected, and its meta. */
  function PageResponse(pg: Listing.Page, relOf: Posts.Post -> Related, dateTime: int -> string): (r: Response)
    requires pg.currentPage >= 1
    ensures |r.data| == |pg.data|
    ensures r.meta == PageMeta(pg)
  {
    Response(Collection(pg.data, relOf, dateTime), PageMeta(pg))
  }

  /**
   The meta of response `r` describes its data as a window of `s`: `from` and `to`
   are null exactly on an empty page; otherwise the entries are the projections of
   positions `from` to `to` of `s`; `prev` is linked past page 1, and `next`
   exactly when posts remain after `to`.
   */
  predicate LocatesData(r: Response, s: seq<Posts.Post>, relOf: Posts.Post -> Related, dateTime: int -> string)
  {
    && (r.meta.from.None? <==> r.data == [])
    && (r.meta.from.Some? ==>
          r.meta.to.Some? && 1 <= r.meta.from.value <= r.meta.to.value <= r.meta.total
          && r.meta.to.value - r.meta.from.value + 1 == |r.data|
          && r.meta.to.value <= |s|
          && forall i :: 0 <= i < |r.data| ==>
               var p := s[r.meta.from.value - 1 + i];
               r.data[i] == ToArray(p, relOf(p), dateTime))
    && (r.meta.hasPrev <==> r.meta.currentPage > 1)
    && (r.meta.hasNext <==> r.meta.to.Some? && r.meta.to.value < r.meta.total)
  }

  /**
   The meta of a response locates its entries in the newest-first list of active
   posts, and a next page is linked exactly when active posts remain after `to`.
   */
  lemma RespondMetaLocatesData(posts: seq<Posts.Post>, requested: int, relOf: Posts.Post -> Related, dateTime: int -> string)
    ensures LocatesData(Respond(posts, requested, relOf, dateTime), Listing.Listed(posts), relOf, dateTime)
  {
    var pg := Listing.Paginate(Listing.Listed(posts), requested);
    Listing.GetPostsPagesListed(posts, requested);
    PaginateMeta(Listing.Listed(posts), requested);
    PageResponseLocatesData(pg, Listing.Listed(posts), relOf, dateTime);
    assert Respond(posts, requested, relOf, dateTime) == PageResponse(pg, relOf, dateTime);
  }

  /** Meta `m` places `data` in `s`: positions `from` to `to`, with the links as `LocatesData` states them. */
  predicate MetaLocates(m: Meta, data: seq<Posts.Post>, s: seq<Posts.Post>)
  {
    && (m.from.None? <==> data == [])
    && (m.from.Some? ==>
          m.to.Some? && 1 <= m.from.value <= m.to.value <= m.total
          && m.to.value - m.from.value + 1 == |data|
          && m.to.value <= |s|
          && forall i :: 0 <= i < |data| ==> data[i] == s[m.from.value - 1 + i])
    && (m.hasPrev <==> m.currentPage > 1)
    && (m.hasNext <==> m.to.Some? && m.to.value < m.total)
  }

  /** The response for a page whose meta places it in `s` locates its entries in `s`. */
  lemma PageResponseLocatesData(pg: Listing.Page, s: seq<Posts.Post>, relOf: Posts.Post -> Related, dateTime: int -> string)
    requires pg.currentPage >= 1
    requires MetaLocates(PageMeta(pg), pg.data, s)
    ensures LocatesData(PageResponse(pg, relOf, dateTime), s, relOf, dateTime)
  {
    var r := PageResponse(pg, relOf, dateTime);
    assert r.data == Collection(pg.data, relOf, dateTime);
  }

  /** The meta of a page locates its items in the paged list. */
  lemma PaginateMeta(s: seq<Posts.Post>, requested: int)
    ensures MetaLocates(PageMeta(Listing.Paginate(s, requested)), Listing.Paginate(s, requested).data, s)
  {
    NextMeansMoreItems(Listing.Paginate(s, requested));
  }

  /** A next page exists exactly when items remain beyond this page's last one. */
  lemma NextMeansMoreItems(pg: Listing.Page)
    requires pg.currentPage >= 1 && pg.perPage == Listing.PerPage
    requires pg.lastPage == Listing.LastPage(pg.total)
    requires |pg.data| == if (pg.currentPage - 1) * Listing.PerPage >= pg.total then 0
      else Listing.Min(Listing.PerPage, pg.total - (pg.currentPage - 1) * Listing.PerPage)
    ensures PageMeta(pg).hasNext <==> PageMeta(pg).to.Some? && PageMeta(pg).to.value < pg.total
  {
  }

  /** A post stored without a title is published as "Untitled Story". */
  lemma NullTitlePublishedAsUntitled(p: Posts.Post, rel: Related, dateTime: int -> string)
    requires p.title.None?
    ensures ToArray(p, rel, dateTime).title == Posts.UntitledStory
  {
  }
}
